=== FILE: README.md ===
# The `conquest` scaffolding command, modelled in Dafny

`conquest` is an Artisan command. From a class name, a method and a set of
options, it writes an invokable Laravel controller. It also asks other
generator commands for a model, an API resource, a form request, a route and
an Inertia page or modal. This project models the command's
decision-and-text layer and proves properties of it:

- how the method argument is normalised;
- how the controller, request, view-resource, namespace and class names are
  derived from the class name and the method;
- the `str_replace` passes that turn the controller stub into a controller,
  in their fixed order;
- the choice of response body, and the separate choice of page or modal;
- the `--all` expansion;
- the run itself: the method check, the model and resource sub-commands,
  and the loop that creates one controller per method and stops at the first
  creation it does not accept.

Files:

- `text.dfy` (module `Text`): the PHP string functions the command relies
  on. These are `trim`, ASCII `strtolower`/`ucfirst`, `str_replace` with one
  search string (`ReplaceAll`, a left-to-right scan that does not overlap)
  and with a list of search strings (`ReplaceEach`, one scan per string, in
  order), and `explode`/`implode` (`Pieces`/`JoinWith`).
- `options.dfy` (module `Options`): the option record and `--all`.
- `collaborators.dfy` (module `Collaborators`): everything the command takes
  from code outside its file, as one record of total functions (`Env`).
  Every property is proved for every such record. This covers the
  method-classification predicates and the crud method list of the
  `HasMethods` and `IsInertiable` traits, the generator base class's name
  helpers and stub rewrites, Laravel's `camel`, the configured base route,
  the file-exists test and the sub-commands' exit codes.
- `names.dfy` (module `Names`): method normalisation and name derivation.
- `substitution.dfy` (module `Substitution`): the stub passes.
- `runs.dfy` (module `Runs`): what a creation returns and the early-return
  loop over creations.
- `conquest.dfy` (module `Conquest`): `createConquest` and `handle`.

Two readings of a creation's return value are modelled: `AsWritten`, PHP's
truthiness as the code is written, and `Corrected`, where an exit code
succeeds when it is 0 (see Findings). `Handle` takes the reading as a
parameter, so each property about the run says which reading it is proved
for.

## Model

| member | source | states |
|---|---|---|
| `Text.Trim` | src/Console/Commands/ConquestCommand.php:68 | PHP `trim` without a character list: the result neither starts nor ends with a space, tab, newline, carriage return, NUL or vertical tab. |
| `Text.TrimIsInfix` | src/Console/Commands/ConquestCommand.php:68 | What `trim` keeps is an infix of its input. Everything before it and everything after it is a character `trim` strips. |
| `Text.Lower` | src/Console/Commands/ConquestCommand.php:70 | Models `Str::lower` on ASCII letters: each character is mapped on its own, `A`-`Z` to `a`-`z`. It has no contract; `Names.NormaliseCase` states what the normalised method holds. |
| `Text.UcFirst` | src/Console/Commands/ConquestCommand.php:70 | Models `Str::ucfirst` on ASCII letters: the first character is upper-cased and the rest kept. It has no contract; see `Names.NormaliseCase`. |
| `Text.ReplaceAll` | src/Console/Commands/ConquestCommand.php:329 | Models `str_replace` with one search string: one left-to-right scan that replaces the occurrences it meets without overlap. The result is never longer than the subject when the replacement is no longer than the search string. |
| `Text.ReplaceEach` | src/Console/Commands/ConquestCommand.php:234 | Models `str_replace` with an array of search strings: one scan per search string, in order, each over the previous result. A subject holding none of them is returned unchanged, and no replacement longer than its search string means no longer result. |
| `Text.Pieces` | src/Console/Commands/ConquestCommand.php:215 | Models `explode`: one piece more than the separators the scan meets, and the first piece is a prefix of the subject. |
| `Text.JoinWith` | src/Console/Commands/ConquestCommand.php:215 | Models `implode`. It has no contract; `Text.ExplodeImplode` and `Text.ReplaceAllIsJoinOfPieces` relate it to `explode` and `str_replace`. |
| `Text.ExplodeImplode` | src/Console/Commands/ConquestCommand.php:215 | `implode(sep, explode(sep, s))` gives back `s` for every separator that is not empty. |
| `Names.NormaliseMethod` | src/Console/Commands/ConquestCommand.php:66-71 | Models `getMethodInput`: trim, lower-case, then upper-case the first letter. The result is as long as the trimmed argument. |
| `Names.PhpFalsy` | src/Console/Commands/ConquestCommand.php:137 | Models PHP's `!$method` on a string: true for the empty string and for `"0"` only. It has no contract of its own; `Conquest.ConfirmationOnlyForMissingMethod` uses it. |
| `Names.NormaliseCase` | src/Console/Commands/ConquestCommand.php:66-71 | The normalised method is the trimmed argument up to letter case. Its first character is not a lower-case letter, and no later character is an upper-case letter. |
| `Names.NormaliseUnpadded` | src/Console/Commands/ConquestCommand.php:68 | The normalised method is empty, or neither starts nor ends with a character `trim` strips. |
| `Names.NormaliseIgnoresCase` | src/Console/Commands/ConquestCommand.php:66-71 | Arguments that differ only in letter case give the same method. |
| `Names.NormaliseIdempotent` | src/Console/Commands/ConquestCommand.php:66-71 | Normalising a normalised method changes nothing. |
| `Names.Resource` | src/Console/Commands/ConquestCommand.php:389 | The view resource name: the class name followed by the method. It has no contract; see `Names.NamesShareResource`. |
| `Names.Controller` | src/Console/Commands/ConquestCommand.php:339-342 | The controller name: the resource followed by `Controller`. It has no contract; see `Names.NamesShareResource` and `Names.NamesDetermineEachOther`. |
| `Names.Request` | src/Console/Commands/ConquestCommand.php:334-337 | The request name: the resource followed by `Request`. It has no contract; see the same two lemmas. |
| `Names.ControllerNamespace` | src/Console/Commands/ConquestCommand.php:215 | Models the namespace expression: prefix `App/Http/Controllers/`, split at `/`, drop the last segment, join with `\`. It has no contract; the `Names.Namespace*` lemmas state what it gives. |
| `Names.NamesShareResource` | src/Console/Commands/ConquestCommand.php:334-342 | The resource name (class name followed by method) is a prefix of both the controller and the request name, and the class name is a prefix of the resource. The controller and request names are always different. |
| `Names.NamesDetermineEachOther` | src/Console/Commands/ConquestCommand.php:334-342 | Two controller names are equal exactly when their resource names are, and the same holds for request names. |
| `Names.NamespaceHasNoSlash` | src/Console/Commands/ConquestCommand.php:215 | The controller namespace holds no `/`. |
| `Names.NamespaceUnderRoot` | src/Console/Commands/ConquestCommand.php:215 | The controller namespace starts with `App\Http\Controllers`. |
| `Names.NamespaceSegments` | src/Console/Commands/ConquestCommand.php:215 | For a controller name without `\`: split at `\`, the namespace gives back the `/`-segments of `App/Http/Controllers/<controller>` without the last one, so it has exactly one segment fewer. |
| `Names.NamespaceOfNested` | src/Console/Commands/ConquestCommand.php:215 | A controller `dir/leaf` lives in `App\Http\Controllers\` followed by `dir` with its `/` turned into `\`. |
| `Names.NamespaceOfFlat` | src/Console/Commands/ConquestCommand.php:215 | A controller without a directory lives in `App\Http\Controllers`. |
| `Names.NamespaceOfAdminUser` | src/Console/Commands/ConquestCommand.php:215 | For class `Admin/User` and method `Index`, the namespace is `App\Http\Controllers\Admin`. |
| `Names.RequestClass` | src/Console/Commands/ConquestCommand.php:216 | Models the request-class expression: prefix `App/Http/Requests/`, then turn every `/` into `\`. It has no contract; see the next two rows. |
| `Names.RequestClassPrefix` | src/Console/Commands/ConquestCommand.php:216 | The request class is `App\Http\Requests\` followed by the request name with its `/` turned into `\`. |
| `Names.RequestClassNoSlash` | src/Console/Commands/ConquestCommand.php:216 | No `/` is left in the request class. |
| `Names.ModelClass` | src/Console/Commands/ConquestCommand.php:218 | Models the model-class expression: prefix `App/Models/` to the model's base name, then turn every `/` into `\`. It has no contract; see the next two rows. |
| `Names.ModelClassPrefix` | src/Console/Commands/ConquestCommand.php:218 | The model class is `App\Models\` followed by the model's base name with its `/` turned into `\`. |
| `Names.ModelClassNoSlash` | src/Console/Commands/ConquestCommand.php:218 | No `/` is left in the model class. |
| `Options.ApplyAll` | src/Console/Commands/ConquestCommand.php:123-132 | With `--all`, model, factory, seed, migration, policy, resource, crud and route are on. Force, page, modal, form, the route file and `--all` itself are unchanged. Without `--all` nothing changes. |
| `Options.ApplyAllEnables` | src/Console/Commands/ConquestCommand.php:123-132 | The options on after the expansion are those on before plus exactly the eight it implies. |
| `Options.ApplyAllIdempotent` | src/Console/Commands/ConquestCommand.php:123-132 | Expanding twice is expanding once. |
| `Options.ApplyAllMonotone` | src/Console/Commands/ConquestCommand.php:123-132 | The expansion never switches an option off. |
| `Options.AllImpliedSize` | src/Console/Commands/ConquestCommand.php:124-131 | `--all` implies exactly eight options. |
| `Substitution.RequestPass` | src/Console/Commands/ConquestCommand.php:232-237 | Models `replaceRequest`: the three request spellings, in order, become the qualified request class. It has no contract; see `Substitution.RequestPassInserts`. |
| `Substitution.RequestPassInserts` | src/Console/Commands/ConquestCommand.php:232-237 | When any of the three request spellings occurs in the stub, the qualified request class occurs in the result, provided the request name holds no `{`. |
| `Substitution.RequestClassShape` | src/Console/Commands/ConquestCommand.php:216 | The request class starts with `A`, which no request spelling holds, and ends with the `t` of `Request`, which `DummyRequest` has only as its last character. It is longer than any spelling. |
| `Substitution.RequestPassLeavesNoSpelling` | src/Console/Commands/ConquestCommand.php:232-237 | No request spelling is left after the pass, whatever the stub, when the request class holds none of them itself and the request name holds no `{`. An occurrence would have to lie inside a copy of the class or cross one of its ends, and the class's first and last characters rule out both crossings. |
| `Substitution.InertiaPass` | src/Console/Commands/ConquestCommand.php:246-255 | Models `replaceInertia`: both Inertia spellings become `use Inertia\Inertia;` for a method rendered through Inertia and are deleted otherwise. It has no contract; see the next three rows. |
| `Substitution.InertiaPassInserts` | src/Console/Commands/ConquestCommand.php:248-249 | For a method rendered through Inertia, an Inertia placeholder in the stub becomes the facade import. |
| `Substitution.InertiaPassOnlyDeletes` | src/Console/Commands/ConquestCommand.php:250-251 | For any other method, the pass only removes characters: the result's multiset of characters is contained in the stub's. |
| `Substitution.InertiaPassLeavesNoSpelling` | src/Console/Commands/ConquestCommand.php:248-249 | For a method rendered through Inertia, no Inertia spelling is left after the pass, whatever the stub. The import starts with `u` and ends with `;`, which no spelling holds, and holds no spelling itself. |
| `Substitution.ModelPass` | src/Console/Commands/ConquestCommand.php:263-272 | Models `replaceModel`: both model spellings become `use <class>;` with the model option and are deleted without it. It has no contract; see the next four rows. |
| `Substitution.ModelPassInserts` | src/Console/Commands/ConquestCommand.php:265-266 | With the model option, a model placeholder in the stub becomes `use <class>;`, provided the class holds no `{`. |
| `Substitution.ModelPassOnlyDeletes` | src/Console/Commands/ConquestCommand.php:267-268 | Without it, the pass only removes characters. |
| `Substitution.ModelPassLeavesNoSpelling` | src/Console/Commands/ConquestCommand.php:265-266 | With the model option, no model spelling is left after the pass, whatever the stub, when the model class holds no `{` or carriage return. |
| `Substitution.ModelPassCanLeaveSpelling` | src/Console/Commands/ConquestCommand.php:267-268 | Without the model option, the pass turns `{{mo{{model}}del}}` into `{{model}}`: deleting a spelling can join the text around it into a new one. |
| `Substitution.InvokeSignature` | src/Console/Commands/ConquestCommand.php:284-291 | Models the two `sprintf` signatures: `public function __invoke(` with the `$request` parameter typed by the request's base name, and with the model option a second parameter typed by the model's base name and named by its camel form, then `)`. It has no contract; see the next four rows. |
| `Substitution.InvokePass` | src/Console/Commands/ConquestCommand.php:282-294 | Models `replaceInvoke`: both invoke spellings become the signature. It has no contract; see `Substitution.InvokePassInserts`. |
| `Substitution.InvokeParameters` | src/Console/Commands/ConquestCommand.php:282-294 | The signature holds one `$` and no `,`, or with the model option two `$` and one `,`, provided the names it is built from hold neither. |
| `Substitution.InvokeParameterList` | src/Console/Commands/ConquestCommand.php:282-294 | The signature is `public function __invoke(`, a parameter list, and `)`. Split at commas, the list is the `$request` parameter typed by the request's base name and, with the model option only, a second parameter typed by the model's base name and named by its camel form. |
| `Substitution.InvokePassInserts` | src/Console/Commands/ConquestCommand.php:286-291 | When any invoke spelling occurs, the signature occurs in the result, provided the names it is built from hold no `{` or carriage return. |
| `Substitution.InvokeSignatureReachesOutput` | src/Console/Commands/ConquestCommand.php:219-221 | The signature the invoke pass writes is still in the text after the response pass and the blank-line collapse, under the same condition on the names. The response spellings cannot cut into it: their one `p` is followed by `o`, the signature's by `u`. |
| `Substitution.Props` | src/Console/Commands/ConquestCommand.php:306-307 | Models the view properties: `'<camel>' => $<camel>` for the model's camel name with the model option, the empty text without. It has no contract. |
| `Substitution.InertiaCall` | src/Console/Commands/ConquestCommand.php:311-313 | Models the shared shape of the two Inertia bodies: `return Inertia::<fn>('<resource>', [`, a newline, three tabs, the properties, a newline, two tabs, `])`, a suffix and `;`. It has no contract; see `Substitution.ResponseTextOpens` and `Substitution.ResponseNamesResource`. |
| `Substitution.ResponseText` | src/Console/Commands/ConquestCommand.php:310-316 | Models the three bodies: a `render` call, a `modal` call followed by `->baseRoute(<configured base route>)`, and `return back();`. It has no contract; see the next rows. |
| `Substitution.ResponsePass` | src/Console/Commands/ConquestCommand.php:304-319 | Models `replaceResponse`: both response spellings become the chosen body. It has no contract; see `Substitution.ResponsePassInserts`. |
| `Substitution.ChosenResponseText` | src/Console/Commands/ConquestCommand.php:310-316 | The body written opens as `return Inertia::render('<resource>', [` exactly when the method is a page method, or the page option is on and the method is rendered through Inertia. It opens as `return Inertia::modal('<resource>', [` exactly when that fails and the same holds for modal. It is `return back();` exactly when neither holds. |
| `Substitution.NonInertiableResponse` | src/Console/Commands/ConquestCommand.php:310-316 | A method not rendered through Inertia ignores the page and modal options. A method that is neither a page nor a modal method then gets `return back();`. |
| `Substitution.ResponseTextOpens` | src/Console/Commands/ConquestCommand.php:311-315 | A body opens with the `render` opening for its resource exactly when it is the page render. It opens with the `modal` opening exactly when it is the modal render. It is `return back();` exactly when it is the third body. |
| `Substitution.ResponsePassInserts` | src/Console/Commands/ConquestCommand.php:310-316 | When any response spelling occurs, the body occurs in the result, provided its resource, properties and base route hold no `{` or carriage return. The spellings cannot cut into it: their one `r` is followed two characters later by `s`, the body's by `t`. |
| `Substitution.ResponseReachesOutput` | src/Console/Commands/ConquestCommand.php:220-221 | When a response spelling reaches the response pass, the chosen body is in the text after the blank-line collapse, provided the resource, the model's camel name and the base route hold no `{` or carriage return. |
| `Substitution.ResponseTextsDiffer` | src/Console/Commands/ConquestCommand.php:311-315 | The three response bodies differ from one another whatever they are built from. |
| `Substitution.ResponseNamesResource` | src/Console/Commands/ConquestCommand.php:308-313 | A render names its view: equal renders of one kind name the same resource, when the resource holds no quote. |
| `Substitution.CollapseBlankLines` | src/Console/Commands/ConquestCommand.php:327-332 | The collapse never lengthens the text, and leaves text without three CRLFs in a row unchanged. |
| `Substitution.CollapseShrinks` | src/Console/Commands/ConquestCommand.php:329 | Text that holds three CRLFs in a row gets strictly shorter. |
| `Substitution.CollapseLeavesLfText` | src/Console/Commands/ConquestCommand.php:329 | Text without carriage returns is unchanged. |
| `Substitution.CollapseNotIdempotent` | src/Console/Commands/ConquestCommand.php:329 | Four CRLFs become three, and a second collapse makes them two, so the pass is not idempotent. |
| `Substitution.LatePasses` | src/Console/Commands/ConquestCommand.php:219-221 | Models the invoke, response and blank-line passes in their order. It has no contract; see the two `ReachesOutput` rows above. |
| `Substitution.Substitute` | src/Console/Commands/ConquestCommand.php:215-221 | Models the six passes this file defines, in the order of `buildConquestClass`, each applied to the result of the one before. It has no contract; see the next three rows. |
| `Substitution.BuildConquestClass` | src/Console/Commands/ConquestCommand.php:211-223 | Models `buildConquestClass`: the namespace pass, the six passes and the class-name pass. It has no contract. |
| `Substitution.InertiaImportReachesOutput` | src/Console/Commands/ConquestCommand.php:211-223 | When an Inertia placeholder survives the request pass and the method is rendered through Inertia, the facade import is in the text after the six passes. The later passes do not destroy it. |
| `Substitution.ModelImportReachesOutput` | src/Console/Commands/ConquestCommand.php:211-223 | With the model option, a model placeholder that reaches the model pass leaves `use <model class>;` in the text after the six passes, provided the model class holds no `{` or carriage return. |
| `Substitution.SubstituteLeavesPlainText` | src/Console/Commands/ConquestCommand.php:211-223 | A stub without `{`, `DummyRequest` or carriage returns passes the six passes unchanged. |
| `Text.StraddlingOccurrenceSurvives` | src/Console/Commands/ConquestCommand.php:268 | Removing `{{model}}` from `{{mo{{model}}del}}` yields `{{model}}`. A single `str_replace` can leave its search string behind even when the replacement does not contain it. |
| `Text.ReplaceAllIsJoinOfPieces` | src/Console/Commands/ConquestCommand.php:329 | Replacing is splitting at the search string and joining with the replacement. |
| `Conquest.ChooseStub` | src/Console/Commands/ConquestCommand.php:391-413 | No page or modal exactly when the method is neither a page nor a modal method and no page or modal option applies to it. A page whenever the page option applies. |
| `Conquest.StubMatchesResponse` | src/Console/Commands/ConquestCommand.php:391-413 | The resource made and the response written disagree exactly when the method is rendered through Inertia, is a page method, and the modal option is on but the page option is off. Then a modal is made for a controller that renders a page. |
| `Conquest.StubCalls` | src/Console/Commands/ConquestCommand.php:391-413 | At most one sub-command is called. It is for the view resource, with the run's `--force` and the method's form flag, and it is a page exactly when the page branch is chosen. |
| `Conquest.ControllerPath` | src/Console/Commands/ConquestCommand.php:352-353 | Models `$controllerPath`: `Http/Controllers/` followed by the controller name. It has no contract. |
| `Conquest.Conflict` | src/Console/Commands/ConquestCommand.php:356-358 | Models the conflict test: `--force` is off and the controller is on disk, either from before the run or written by an earlier creation of the same run. It has no contract; see `Conquest.CreateConquest` and `Conquest.ConflictFails`. |
| `Conquest.CreateConquest` | src/Console/Commands/ConquestCommand.php:350-414 | The creation returns `false` exactly when the controller is on disk (from before the run, or written earlier in it) and `--force` is off. Otherwise it writes exactly one file, at `Http/Controllers/<controller>`. |
| `Conquest.CreateConquestWrites` | src/Console/Commands/ConquestCommand.php:211-223 | Of the options, the controller written depends only on model, page and modal. Two option sets that agree on those three and have no conflict write the same file; `--force` decides whether it is written, not what is written. |
| `Conquest.CreateConquestCalls` | src/Console/Commands/ConquestCommand.php:373-413 | A creation asks for nothing exactly on a conflict. Otherwise the request comes first and the route second, every sub-command is named after the creation's resource (the class name followed by the method), and a page or modal call, if any, comes last. |
| `Conquest.CreationCalls` | src/Console/Commands/ConquestCommand.php:373-413 | Models the calls after the write: the request, the route, then the page or modal, if any. It has no contract; see the previous row. |
| `Conquest.CreateConquestValue` | src/Console/Commands/ConquestCommand.php:356-413 | A creation answers `false` exactly when it calls nothing. Otherwise it answers an integer exactly when its last call is a page or modal, and that integer is the last call's exit code. In every other case it answers `true`. |
| `Conquest.ForceOverwrites` | src/Console/Commands/ConquestCommand.php:356-365 | With `--force` a creation always writes its controller, at the controller path. |
| `Conquest.ConflictFails` | src/Console/Commands/ConquestCommand.php:356-362 | A controller on disk, from before the run or from an earlier creation, is not accepted without `--force` under either reading. Nothing is written and nothing is called. |
| `Conquest.AsWrittenInvertsExitCode` | src/Console/Commands/ConquestCommand.php:391-413 | Read as written, a creation that makes a page or modal is accepted exactly when that sub-command's exit code is non-zero. |
| `Conquest.CorrectedAccepts` | src/Console/Commands/ConquestCommand.php:164 | Read as meant, a creation is accepted exactly when there is no conflict and the page or modal, if any, exits with 0. |
| `Conquest.ReadingsDiffer` | src/Console/Commands/ConquestCommand.php:169 | The two readings disagree exactly on the creations that make a page or modal. |
| `Runs.Succeeded` | src/Console/Commands/ConquestCommand.php:164 | How the run reads a creation's answer. As written, PHP truthiness: `false` and `0` fail. As meant, an exit code succeeds when it is 0. It has no contract; see the next rows. |
| `Conquest.Creations` | src/Console/Commands/ConquestCommand.php:162-172 | Models the loop's creations: one per method, in order, each made against the disk as it was plus the controllers of the methods before it. It has no contract; see `Conquest.CreationsSeeEarlierWrites`. |
| `Conquest.CreationWrote` | src/Console/Commands/ConquestCommand.php:163-166 | A creation of the run that succeeds, under either reading, has written its own controller. |
| `Conquest.CreationsSeeEarlierWrites` | src/Console/Commands/ConquestCommand.php:163-166 | When the run reaches a creation, the files the run has written so far are exactly the controllers of the methods before it. So the disk each creation is made against is the disk the command sees at that point. |
| `Conquest.RepeatedMethodFails` | src/Console/Commands/ConquestCommand.php:162-166 | Without `--force`, a crud run over a method list that names a method twice fails under either reading: the second creation finds the controller the first one wrote. |
| `Runs.RunEach` | src/Console/Commands/ConquestCommand.php:162-172 | The loop's answer is true exactly when every creation succeeds. |
| `Runs.RunEachCalls` | src/Console/Commands/ConquestCommand.php:163-166 | The loop's sub-commands are those of the creations up to and including the first failure, in order, and none after it. |
| `Runs.RunEachWrites` | src/Console/Commands/ConquestCommand.php:163-166 | The same holds for the files it writes. |
| `Runs.Tried` | src/Console/Commands/ConquestCommand.php:163-166 | The loop reaches only creations whose predecessors all succeeded. When it stops early, the last creation it reached failed. |
| `Conquest.Prelude` | src/Console/Commands/ConquestCommand.php:144-160 | Models the model and resource sub-commands before the controllers, with the options they pass. It has no contract; see `Conquest.Proceed` and `Conquest.AllBuildsEverything`. |
| `Conquest.Declined` | src/Console/Commands/ConquestCommand.php:137-141 | Models the early stop: an empty or `"0"` method that is not valid, outside a crud run, with the user declining. It has no contract; see `Conquest.Proceed`. |
| `Conquest.Methods` | src/Console/Commands/ConquestCommand.php:162-172 | Models the methods a run creates controllers for: the crud list with `--crud`, the one method otherwise. It has no contract. |
| `Conquest.Handle` | src/Console/Commands/ConquestCommand.php:116-121 | A name PHP reserves ends the run with `false` before anything is called or written. |
| `Conquest.Proceed` | src/Console/Commands/ConquestCommand.php:137-172 | An empty or `"0"` method that is not valid, outside a crud run, declined by the user, ends the run with `false` and no effects. Otherwise the model and resource sub-commands come first. |
| `Conquest.ConfirmationOnlyForMissingMethod` | src/Console/Commands/ConquestCommand.php:137-142 | The user's answer to the confirmation changes nothing unless the method is empty or `"0"` and no crud run is asked for. A method other than `""` and `"0"` passes without a question. |
| `Conquest.ProceedSucceeded` | src/Console/Commands/ConquestCommand.php:162-176 | A successful run wrote one controller per method, in order, each at its own controller path. |
| `Conquest.AllBuildsEverything` | src/Console/Commands/ConquestCommand.php:123-167 | With `--all`, the model (with factory, seeder, migration and policy) comes first, then the resource. The run succeeds exactly when every crud method's creation is accepted, each against the disk plus the controllers of the methods before it. |
| `Conquest.CrudStopsAfterFirstPage` | src/Console/Commands/ConquestCommand.php:162-167 | Read as written, a crud run whose first method gets a page or modal made with exit code 0 fails after writing one controller. Read as meant, the same run writes at least two, provided the second method's controller conflicts neither with a file on disk nor with the first method's controller. |
| `Conquest.SinglePageRunFails` | src/Console/Commands/ConquestCommand.php:168-171 | Read as written, a run without `--crud` whose one creation makes a page or modal with exit code 0 fails, having written the controller. Read as meant, the same run succeeds. |

## Left out

- Prompts: `promptForMissingArgumentsUsing`, `afterPromptingForMissingArguments` and `multiselect`/`select`/`text` are interactive. The answer to the one `confirm` in `handle` is a boolean input of `Handle`.
- Console output (errors, warnings, info and success lines) has no effect on the result and is not modelled.
- The file system: reading the stub, `makeDirectory`, `getPath` and `files->put`. A write is recorded as a path plus its text. A creation sees the disk as a predicate of the environment, for the files there before the run, plus the controllers that earlier creations of the same run wrote. Files the sub-commands write are not tracked, since they are not controllers.
- The Windows path rewrite before the info line only changes console output.
- The sub-commands (`make:model`, `make:resource`, `make:request`, `make:route`, `make:page`, `make:modal`) run code outside this file. The model records each call and its arguments, and takes its exit code from the environment.
- The generator base class and the traits are not part of this model: `replaceNamespace`, `replaceClass`, `sortImports`, `isReservedName`, `getBase`, `getPureClassName`, the stub path, the method-classification predicates and the crud method list. Laravel's `Str::camel` and `config('assemble.base_route')` are left out for the same reason. All are fields of `Env`, and every property holds for all of them.
- The empty policy branch in `createConquest` does nothing and is not modelled.
- `--force` is taken as always declared, as `getOptions` declares it, so the `hasOption('force')` test is not modelled. A missing `--file` value is the empty string.
- A missing method argument is modelled as the empty string, which is what `trim` makes of it.
- `getNameInput` belongs to the generator base class. `Handle` takes its result, the trimmed name argument, as its input, and passes it to `isReservedName` and `getPureClassName` as the command does.
- `Names.NormaliseMethod`: `Str::lower` and `Str::ucfirst` are multibyte-aware, but the model changes the case of ASCII letters only.
- `Substitution.BuildConquestClass`: the namespace and class-name passes are the base class's and come from the environment. Their placeholder spellings are not modelled.
- The property "no placeholder spelling remains after a pass when the replacement holds none" is proved where it holds: for the request pass (`Substitution.RequestPassLeavesNoSpelling`), for the Inertia pass of a method rendered through Inertia (`Substitution.InertiaPassLeavesNoSpelling`), and for the model pass with `--model` (`Substitution.ModelPassLeavesNoSpelling`). For a pass that deletes it is false (`Substitution.ModelPassCanLeaveSpelling`). It is not stated for the invoke and response passes, whose replacements are built from collaborator names.
- Substitution.InvokePassInserts: proved only for request, model and camel names without `{` or carriage return. Otherwise a name could complete a placeholder with the text around the signature, or a carriage return in it could be rewritten by the blank-line collapse.
- Substitution.InvokeSignatureReachesOutput: proved only under the same condition on the names, for the same reason.
- Substitution.ResponsePassInserts: proved only for a resource, properties and base route without `{` or carriage return, for the same reason.
- Substitution.ResponseReachesOutput: proved only for a resource, model camel name and base route without `{` or carriage return, for the same reason.
- Substitution.RequestPassLeavesNoSpelling: proved only for request names without `{`, because the proof rules out a crossing occurrence of a `{{`-spelling by the absence of `{` in the class.
- Substitution.ModelPassLeavesNoSpelling: proved only for a model class without `{` or carriage return, because such a class could itself hold a spelling.
- Substitution.RequestPassInserts: proved only for request names without `{`. With a `{` in it, the inserted class, alone or with the text after it, could hold a later `{{`-spelling, which the next step of the pass would then replace.
- Substitution.ModelPassInserts: proved only for a model class without `{`, for the same reason with the second model spelling.
- Substitution.ModelImportReachesOutput: proved only for a model class without `{` or carriage return. The `{` condition has the reason above; a carriage return in the import could be rewritten by the blank-line collapse.

## Findings

| source | as written | input that shows it | evidently intended | confidence | as-written member | corrected member |
|---|---|---|---|---|---|---|
| src/Console/Commands/ConquestCommand.php:164 | `createConquest` returns the page or modal sub-command's exit code, and `handle` stops the run when `! createConquest(...)` holds, so exit code 0 (success) stops the run with `false` and a failing sub-command lets it go on | `--crud` with `--page`, a first crud method rendered through Inertia, no existing controllers, `make:page` exiting with 0: the run writes one controller and answers `false`. A run without `--crud` for one page method, with `make:page` exiting with 0, also answers `false` (`Conquest.SinglePageRunFails`) | a creation succeeds when its page or modal sub-command exits with 0, and the crud run goes on to the next method | not executed | `Conquest.CrudStopsAfterFirstPage` | `Conquest.CorrectedAccepts` |

=== FILE: collaborators.dfy ===
/**
 What the scaffolding command takes from outside the file it is written in:
 the method-classification helpers of its traits, the name helpers of its
 base class and of Laravel's string helpers, the stub text, the file system's
 answer to "does this controller exist", and the exit codes of the
 sub-commands it dispatches to. None of these is defined by the command
 itself, so the model takes them as one record of total functions and every
 property is proved for all of them.
 */
module Collaborators {

  /** A sub-command the scaffolder dispatches to, with the arguments it passes. */
  datatype Call =
    | MakeModel(name: string, force: bool, factory: bool, seed: bool, migration: bool, policy: bool)
    | MakeResource(name: string, force: bool)
    | MakeRequest(name: string, force: bool)
    | MakeRoute(controller: string, model: bool, file: string, asClass: bool)
    | MakePage(name: string, force: bool, form: bool)
    | MakeModal(name: string, force: bool, form: bool)

  /** The command's environment. */
  datatype Env = Env(
    /** The method list a crud run walks, in order. */
    methods: seq<string>,
    /** Method classification. */
    isPage: string -> bool,
    isModal: string -> bool,
    isForm: string -> bool,
    isValidMethod: string -> bool,
    isNotInertiable: string -> bool,
    /** A name PHP reserves. */
    isReservedName: string -> bool,
    /** Name helpers: the class name without its path prefix noise, the last
        path segment, and Laravel's camel case. */
    pureClassName: string -> string,
    base: string -> string,
    camel: string -> string,
    /** Stub rewrites of the generator base class. */
    replaceNamespace: (string, string) -> string,
    replaceClass: (string, string) -> string,
    sortImports: string -> string,
    /** The controller stub's text. */
    stub: string,
    /** The configured base route of modal responses. */
    baseRoute: string,
    /** Whether a controller existed at a path under the application before
        the run. */
    alreadyExists: string -> bool,
    /** The exit code a sub-command returns; 0 means success. */
    exitCode: Call -> int)
}

=== FILE: conquest.dfy ===
/**
 The command's run: the `--all` expansion, the method check, the model and
 resource sub-commands, and one controller creation per method (every method
 of the crud list, or the one given). A creation writes the controller, asks
 for its request and its route, and, depending on the method and the page and
 modal options, for a page or a modal.

 A creation answers with a PHP value: `false` when the controller exists and
 `--force` is off, `true` when no page or modal is made, and otherwise the
 integer exit code of the page or modal sub-command, where 0 means success.
 The run negates that value to decide whether to stop, so two readings of it
 are modelled: PHP's truthiness as the command is written, and "exit code 0"
 as it is evidently meant.
 */
module Conquest {
  import opened Collaborators
  import Options
  import opened Names
  import opened Substitution
  import opened Runs

  // ---------------------------------------------------------------- page or modal

  /** The front-end resource a creation asks for. */
  datatype Stub = PageStub | ModalStub | NoStub

  /** The page and modal options win for methods rendered through Inertia,
      then the method's own classification; a method that is neither gets none. */
  function ChooseStub(env: Env, flags: Options.Flags, m: string): (k: Stub)
    ensures k == NoStub <==>
      !env.isPage(m) && !env.isModal(m) && !((flags.page || flags.modal) && !env.isNotInertiable(m))
    ensures flags.page && !env.isNotInertiable(m) ==> k == PageStub
  {
    if flags.page && !env.isNotInertiable(m) then PageStub
    else if flags.modal && !env.isNotInertiable(m) then ModalStub
    else if env.isPage(m) then PageStub
    else if env.isModal(m) then ModalStub
    else NoStub
  }

  /** The response a stub is rendered with. */
  function StubResponse(k: Stub): Response {
    match k
    case PageStub => Render
    case ModalStub => ModalRender
    case NoStub => Back
  }

  /** The controller's response and the created resource agree, except for a
      page method rendered through Inertia with the modal option on and the
      page option off: the controller renders a page, but a modal is made. */
  lemma StubMatchesResponse(env: Env, flags: Options.Flags, m: string)
    ensures StubResponse(ChooseStub(env, flags, m)) != ChooseResponse(env, flags, m) <==>
      !env.isNotInertiable(m) && !flags.page && flags.modal && env.isPage(m)
    ensures StubResponse(ChooseStub(env, flags, m)) != ChooseResponse(env, flags, m) ==>
      ChooseStub(env, flags, m) == ModalStub && ChooseResponse(env, flags, m) == Render
  {
  }

  /** The page or modal sub-command, if any. */
  function StubCalls(env: Env, flags: Options.Flags, name: string, m: string): (cs: seq<Call>)
    ensures |cs| == if ChooseStub(env, flags, m) == NoStub then 0 else 1
    ensures |cs| == 1 ==> cs[0] in [MakePage(Resource(name, m), flags.force, env.isForm(m)),
                                    MakeModal(Resource(name, m), flags.force, env.isForm(m))]
    ensures |cs| == 1 ==> (cs[0].MakePage? <==> ChooseStub(env, flags, m) == PageStub)
  {
    match ChooseStub(env, flags, m)
    case PageStub => [MakePage(Resource(name, m), flags.force, env.isForm(m))]
    case ModalStub => [MakeModal(Resource(name, m), flags.force, env.isForm(m))]
    case NoStub => []
  }

  // ---------------------------------------------------------------- one creation

  /** Where the controller goes, relative to the application directory. */
  function ControllerPath(name: string, m: string): string {
    "Http/Controllers/" + Controller(name, m)
  }

  /** The controller is on disk, either from before the run or written by an
      earlier creation of the run (`written`), and `--force` is off. The
      command declares `--force`, so only that option's value counts. */
  predicate Conflict(env: Env, flags: Options.Flags, name: string, m: string, written: set<string>) {
    !flags.force && (env.alreadyExists(ControllerPath(name, m)) || ControllerPath(name, m) in written)
  }

  /** One controller with its request, route and front-end resource. */
  function CreateConquest(env: Env, flags: Options.Flags, name: string, m: string, written: set<string>): (o: Outcome)
    ensures Conflict(env, flags, name, m, written) <==> o.value == Bool(false)
    ensures |o.writes| == if Conflict(env, flags, name, m, written) then 0 else 1
    ensures |o.writes| == 1 ==> o.writes[0].path == ControllerPath(name, m)
  {
    if Conflict(env, flags, name, m, written) then
      Outcome([], [], Bool(false))
    else
      var written := Written(ControllerPath(name, m), env.sortImports(BuildConquestClass(env, flags, name, m)));
      var stub := StubCalls(env, flags, name, m);
      var value := if |stub| == 0 then Bool(true) else Int(env.exitCode(stub[0]));
      Outcome(CreationCalls(env, flags, name, m), [written], value)
  }

  /** The sub-commands after the controller is written: the request, the
      route, then the page or modal if any. */
  function CreationCalls(env: Env, flags: Options.Flags, name: string, m: string): seq<Call> {
    [MakeRequest(Request(name, m), flags.force),
     MakeRoute(Controller(name, m), flags.model, flags.file, flags.model)]
    + StubCalls(env, flags, name, m)
  }

  /** The controller a creation writes depends on the options only through the
      model, page and modal options: `--force` decides whether it is written,
      not what is written, and the remaining options never reach its text. */
  lemma CreateConquestWrites(env: Env, f: Options.Flags, g: Options.Flags, name: string, m: string,
                              written: set<string>)
    requires f.model == g.model && f.page == g.page && f.modal == g.modal
    requires !Conflict(env, f, name, m, written) && !Conflict(env, g, name, m, written)
    ensures CreateConquest(env, f, name, m, written).writes == CreateConquest(env, g, name, m, written).writes
  {
    assert ChooseResponse(env, f, m) == ChooseResponse(env, g, m);
    assert Props(env, name, f.model) == Props(env, name, g.model);
    var s := env.replaceNamespace(env.stub, ControllerNamespace(Controller(name, m)));
    var before := ModelPass(InertiaPass(RequestPass(s, RequestClass(name, m)), env, m), f.model, ModelClass(env.base(name)));
    assert LatePasses(env, f, name, m, before) == LatePasses(env, g, name, m, before);
    assert Substitute(env, f, name, m, s) == Substitute(env, g, name, m, s);
    assert BuildConquestClass(env, f, name, m) == BuildConquestClass(env, g, name, m);
  }

  /** The name a sub-command is asked to make (the controller, for the route). */
  function CallName(c: Call): string {
    match c
    case MakeModel(n, _, _, _, _, _) => n
    case MakeResource(n, _) => n
    case MakeRequest(n, _) => n
    case MakeRoute(controller, _, _, _) => controller
    case MakePage(n, _, _) => n
    case MakeModal(n, _, _) => n
  }

  /** A creation asks for nothing on a conflict. Otherwise it asks for the
      request first and the route second, every sub-command it calls is named
      after the creation's resource, and a page or modal, if any, comes last. */
  lemma CreateConquestCalls(env: Env, flags: Options.Flags, name: string, m: string, written: set<string>)
    ensures var cs := CreateConquest(env, flags, name, m, written).calls;
            (cs == [] <==> Conflict(env, flags, name, m, written))
            && (cs != [] ==> |cs| >= 2 && cs[0].MakeRequest? && cs[1].MakeRoute?)
            && (forall i :: 0 <= i < |cs| ==> Resource(name, m) <= CallName(cs[i]))
            && (forall i :: 0 <= i < |cs| && (cs[i].MakePage? || cs[i].MakeModal?) ==> i == |cs| - 1)
  {
    CallsOfCreation(env, flags, name, m, written);
    CreationCallsShape(env, flags, name, m);
  }

  /** The calls after the write: request, route, then at most a page or modal,
      all named after the resource. */
  lemma CreationCallsShape(env: Env, flags: Options.Flags, name: string, m: string)
    ensures var cs := CreationCalls(env, flags, name, m);
            |cs| >= 2 && cs[0].MakeRequest? && cs[1].MakeRoute?
            && (forall i :: 0 <= i < |cs| ==> Resource(name, m) <= CallName(cs[i]))
            && (forall i :: 0 <= i < |cs| && (cs[i].MakePage? || cs[i].MakeModal?) ==> i == |cs| - 1)
  {
    var stub := StubCalls(env, flags, name, m);
    var request := MakeRequest(Request(name, m), flags.force);
    var route := MakeRoute(Controller(name, m), flags.model, flags.file, flags.model);
    NamesShareResource(name, m);
    CallsShape(request, route, stub, Resource(name, m));
  }

  /** A creation calls nothing on a conflict and its creation calls otherwise. */
  lemma CallsOfCreation(env: Env, flags: Options.Flags, name: string, m: string, written: set<string>)
    ensures CreateConquest(env, flags, name, m, written).calls ==
            if Conflict(env, flags, name, m, written) then [] else CreationCalls(env, flags, name, m)
  {
  }

  /** The shape of a creation's calls: request, route, then at most one more. */
  lemma CallsShape(request: Call, route: Call, stub: seq<Call>, resource: string)
    requires request.MakeRequest? && route.MakeRoute? && |stub| <= 1
    requires resource <= CallName(request) && resource <= CallName(route)
    requires forall j :: 0 <= j < |stub| ==> resource <= CallName(stub[j])
    ensures var cs := [request, route] + stub;
            (forall i :: 0 <= i < |cs| ==> resource <= CallName(cs[i]))
            && (forall i :: 0 <= i < |cs| && (cs[i].MakePage? || cs[i].MakeModal?) ==> i == |cs| - 1)
  {
    var cs := [request, route] + stub;
    assert forall i :: 2 <= i < |cs| ==> cs[i] == stub[i - 2];
  }

  /** A creation answers `false` on a conflict, otherwise the exit code of its
      last sub-command when that is a page or modal, and `true` when it is not. */
  lemma CreateConquestValue(env: Env, flags: Options.Flags, name: string, m: string, written: set<string>)
    ensures var o := CreateConquest(env, flags, name, m, written);
            var last := |o.calls| - 1;
            (o.value == Bool(false) <==> o.calls == [])
            && (o.value.Int? <==> o.calls != [] && (o.calls[last].MakePage? || o.calls[last].MakeModal?))
            && (o.value.Int? ==> o.value.i == env.exitCode(o.calls[last]))
  {
  }

  /** Whether the run goes on after creating the controller for `m`. */
  predicate Accepted(env: Env, flags: Options.Flags, name: string, m: string, written: set<string>, reading: Reading) {
    Succeeded(reading, CreateConquest(env, flags, name, m, written).value)
  }

  /** With `--force` a creation always writes its controller. */
  lemma ForceOverwrites(env: Env, flags: Options.Flags, name: string, m: string, written: set<string>)
    requires flags.force
    ensures |CreateConquest(env, flags, name, m, written).writes| == 1
    ensures CreateConquest(env, flags, name, m, written).writes[0].path == ControllerPath(name, m)
  {
  }

  /** An existing controller without `--force` fails under either reading and
      leaves everything as it was. */
  lemma ConflictFails(env: Env, flags: Options.Flags, name: string, m: string, written: set<string>,
                      reading: Reading)
    requires !flags.force
    requires env.alreadyExists(ControllerPath(name, m)) || ControllerPath(name, m) in written
    ensures !Accepted(env, flags, name, m, written, reading)
    ensures CreateConquest(env, flags, name, m, written).calls == [] && CreateConquest(env, flags, name, m, written).writes == []
  {
  }

  /** As written, a page or modal whose sub-command succeeds is taken for a
      failure, and one whose sub-command fails for a success. */
  lemma AsWrittenInvertsExitCode(env: Env, flags: Options.Flags, name: string, m: string, written: set<string>)
    requires !Conflict(env, flags, name, m, written) && ChooseStub(env, flags, m) != NoStub
    ensures Accepted(env, flags, name, m, written, AsWritten) <==>
      env.exitCode(StubCalls(env, flags, name, m)[0]) != 0
  {
  }

  /** Read as meant, a creation is accepted exactly when nothing stood in its
      way and the page or modal, if one was asked for, was made. */
  lemma CorrectedAccepts(env: Env, flags: Options.Flags, name: string, m: string, written: set<string>)
    ensures Accepted(env, flags, name, m, written, Corrected) <==>
      !Conflict(env, flags, name, m, written)
      && (ChooseStub(env, flags, m) != NoStub ==> env.exitCode(StubCalls(env, flags, name, m)[0]) == 0)
  {
  }

  /** The two readings differ on every creation that asks for a page or a
      modal, and only there. */
  lemma ReadingsDiffer(env: Env, flags: Options.Flags, name: string, m: string, written: set<string>)
    ensures Accepted(env, flags, name, m, written, AsWritten) != Accepted(env, flags, name, m, written, Corrected) <==>
      !Conflict(env, flags, name, m, written) && ChooseStub(env, flags, m) != NoStub
  {
  }

  // ---------------------------------------------------------------- the method loop

  /** The controllers of the methods before the `i`-th one. */
  function WrittenBefore(name: string, ms: seq<string>, i: nat): set<string>
    requires i <= |ms|
  {
    set j | 0 <= j < i :: ControllerPath(name, ms[j])
  }

  /** The creations for `ms`, one per method, in order. The run only reaches
      a creation after every earlier one succeeded, and a creation that
      succeeds has written its controller (`CreationsSeeEarlierWrites`), so
      each creation is made against the controllers of the methods before it. */
  function Creations(env: Env, flags: Options.Flags, name: string, ms: seq<string>): seq<Outcome> {
    seq(|ms|, i requires 0 <= i < |ms| => CreateConquest(env, flags, name, ms[i], WrittenBefore(name, ms, i)))
  }

  /** The loop over the creations succeeds exactly when each is accepted
      against the controllers of the methods before it. */
  lemma RunAccepts(env: Env, flags: Options.Flags, name: string, ms: seq<string>, reading: Reading)
    ensures RunEach(Creations(env, flags, name, ms), reading).result <==>
      forall i :: 0 <= i < |ms| ==> Accepted(env, flags, name, ms[i], WrittenBefore(name, ms, i), reading)
  {
    var os := Creations(env, flags, name, ms);
    assert |os| == |ms|;
    assert forall i :: 0 <= i < |ms| ==>
      os[i] == CreateConquest(env, flags, name, ms[i], WrittenBefore(name, ms, i));
  }

  /** A creation of the run that succeeds has written its controller. */
  lemma CreationWrote(env: Env, flags: Options.Flags, name: string, ms: seq<string>,
                      reading: Reading, j: nat)
    requires j < |ms| && Succeeded(reading, Creations(env, flags, name, ms)[j].value)
    ensures var o := Creations(env, flags, name, ms)[j];
            |o.writes| == 1 && o.writes[0].path == ControllerPath(name, ms[j])
  {
    var o := CreateConquest(env, flags, name, ms[j], WrittenBefore(name, ms, j));
    assert Creations(env, flags, name, ms)[j] == o;
    assert o.value != Bool(false);
  }

  /** The files on disk when the run reaches a creation are exactly the
      controllers of the methods before it, besides those there before the run. */
  lemma CreationsSeeEarlierWrites(env: Env, flags: Options.Flags, name: string, ms: seq<string>,
                                  reading: Reading, i: nat)
    requires i < Tried(Creations(env, flags, name, ms), reading)
    ensures Paths(WritesOf(Creations(env, flags, name, ms)[..i])) == WrittenBefore(name, ms, i)
  {
    var os := Creations(env, flags, name, ms);
    var p := os[..i];
    forall j | 0 <= j < |p|
      ensures |p[j].writes| == 1 && p[j].writes[0].path == ControllerPath(name, ms[j])
    {
      assert p[j] == os[j];
      CreationWrote(env, flags, name, ms, reading, j);
    }
    PathsOfSingles(p, name, ms);
  }

  /** Outcomes that each wrote the controller of their method wrote exactly
      the controllers of those methods. */
  lemma PathsOfSingles(p: seq<Outcome>, name: string, ms: seq<string>)
    requires |p| <= |ms|
    requires forall j :: 0 <= j < |p| ==> |p[j].writes| == 1 && p[j].writes[0].path == ControllerPath(name, ms[j])
    ensures Paths(WritesOf(p)) == WrittenBefore(name, ms, |p|)
  {
    WritesOfSingles(p);
  }

  /** A run over one method makes one creation against the disk as it was. */
  lemma SingleCreation(env: Env, flags: Options.Flags, name: string, m: string)
    ensures Creations(env, flags, name, [m]) == [CreateConquest(env, flags, name, m, {})]
  {
    assert WrittenBefore(name, [m], 0) == {};
  }

  /** The first creation sees the disk as it was; the second also sees the
      first one's controller. */
  lemma FirstCreations(env: Env, flags: Options.Flags, name: string, ms: seq<string>)
    requires |ms| >= 2
    ensures Creations(env, flags, name, ms)[0] == CreateConquest(env, flags, name, ms[0], {})
    ensures Creations(env, flags, name, ms)[1] == CreateConquest(env, flags, name, ms[1], {ControllerPath(name, ms[0])})
  {
    assert WrittenBefore(name, ms, 0) == {};
    assert WrittenBefore(name, ms, 1) == {ControllerPath(name, ms[0])};
  }

  /** Without `--force` a crud run over a list that names a method twice
      fails: the second creation finds the controller the first one wrote. */
  lemma RepeatedMethodFails(env: Env, flags: Options.Flags, name: string, m: string, confirmed: bool,
                            reading: Reading, i: nat, j: nat)
    requires flags.crud && !flags.force
    requires i < j < |env.methods| && env.methods[i] == env.methods[j]
    ensures !Proceed(env, flags, name, m, confirmed, reading).result
  {
    var ms := env.methods;
    assert Methods(env, flags, m) == ms;
    assert ControllerPath(name, ms[j]) in WrittenBefore(name, ms, j) by {
      assert ControllerPath(name, ms[i]) == ControllerPath(name, ms[j]);
    }
    var os := Creations(env, flags, name, ms);
    assert !Succeeded(reading, os[j].value);
  }

  // ---------------------------------------------------------------- the command

  /** The sub-commands before the controllers: the model, with what `--all`
      or the individual options ask of it, then the API resource. */
  function Prelude(env: Env, flags: Options.Flags, name: string): seq<Call> {
    (if flags.model
     then [MakeModel(env.base(name), flags.force, flags.factory, flags.seed, flags.migration, flags.policy)]
     else [])
    + (if flags.resource then [MakeResource(name, flags.force)] else [])
  }

  /** Whether the run stops at the method check: the method is empty or `"0"`,
      not a valid method, no crud run was asked for, and the user declined to
      go on. */
  predicate Declined(env: Env, flags: Options.Flags, m: string, confirmed: bool) {
    PhpFalsy(m) && !env.isValidMethod(m) && !flags.crud && !confirmed
  }

  /** The methods a run creates controllers for. */
  function Methods(env: Env, flags: Options.Flags, m: string): seq<string> {
    if flags.crud then env.methods else [m]
  }

  /** The command, given the name as `getNameInput` returns it (the trimmed
      name argument), the method argument as typed, the options, and the
      user's answer to the confirmation it may ask for. */
  function Handle(env: Env, options: Options.Flags, nameInput: string, methodArg: string,
                  confirmed: bool, reading: Reading): (r: Run)
    ensures env.isReservedName(nameInput) ==> r == Run([], [], false)
    ensures r.result ==> !env.isReservedName(nameInput)
  {
    if env.isReservedName(nameInput) then Run([], [], false)
    else Proceed(env, Options.ApplyAll(options), env.pureClassName(nameInput), NormaliseMethod(methodArg),
                 confirmed, reading)
  }

  /** The run after the name check, with the options expanded, the class name
      and the normalised method. */
  function Proceed(env: Env, flags: Options.Flags, name: string, m: string,
                   confirmed: bool, reading: Reading): (r: Run)
    ensures Declined(env, flags, m, confirmed) ==> r == Run([], [], false)
    ensures !Declined(env, flags, m, confirmed) ==> Prelude(env, flags, name) <= r.calls
  {
    if Declined(env, flags, m, confirmed) then Run([], [], false)
    else
      var run := RunEach(Creations(env, flags, name, Methods(env, flags, m)), reading);
      Run(Prelude(env, flags, name) + run.calls, run.writes, run.result)
  }

  /** The answer to the confirmation matters only for an empty or `"0"`
      method outside a crud run. */
  lemma ConfirmationOnlyForMissingMethod(env: Env, options: Options.Flags, nameInput: string,
                                         methodArg: string, reading: Reading)
    requires !PhpFalsy(NormaliseMethod(methodArg)) || options.crud || options.all
    ensures Handle(env, options, nameInput, methodArg, true, reading) ==
            Handle(env, options, nameInput, methodArg, false, reading)
  {
  }

  /** A successful run wrote one controller per method, each at its own path. */
  lemma ProceedSucceeded(env: Env, flags: Options.Flags, name: string, m: string,
                         confirmed: bool, reading: Reading)
    requires Proceed(env, flags, name, m, confirmed, reading).result
    ensures var ms := Methods(env, flags, m);
            var r := Proceed(env, flags, name, m, confirmed, reading);
            |r.writes| == |ms|
            && forall i :: 0 <= i < |ms| ==> r.writes[i].path == ControllerPath(name, ms[i])
  {
    var ms := Methods(env, flags, m);
    var os := Creations(env, flags, name, ms);
    forall i | 0 <= i < |os| && Succeeded(reading, os[i].value)
      ensures |os[i].writes| == 1 && os[i].writes[0].path == ControllerPath(name, ms[i])
    {
      CreationWrote(env, flags, name, ms, reading, i);
    }
    assert RunEach(os, reading).result;
    RunEachSucceeded(os, reading);
    var w := RunEach(os, reading).writes;
    forall i | 0 <= i < |ms| ensures w[i].path == ControllerPath(name, ms[i]) {
      assert Succeeded(reading, os[i].value);
      assert w[i] == os[i].writes[0];
    }
  }

  /** With `--all` the model comes with its factory, seeder, migration and
      policy, then the resource, and every crud method gets a controller. */
  lemma AllBuildsEverything(env: Env, options: Options.Flags, nameInput: string, methodArg: string,
                            confirmed: bool, reading: Reading)
    requires options.all && !env.isReservedName(nameInput)
    ensures var name := env.pureClassName(nameInput);
            var r := Handle(env, options, nameInput, methodArg, confirmed, reading);
            |r.calls| >= 2
            && r.calls[0] == MakeModel(env.base(name), options.force, true, true, true, true)
            && r.calls[1] == MakeResource(name, options.force)
            && (r.result <==> forall i :: 0 <= i < |env.methods| ==>
                  Accepted(env, Options.ApplyAll(options), name, env.methods[i],
                           WrittenBefore(name, env.methods, i), reading))
  {
    var m := NormaliseMethod(methodArg);
    var name := env.pureClassName(nameInput);
    assert Handle(env, options, nameInput, methodArg, confirmed, reading) ==
      Proceed(env, Options.ApplyAll(options), name, m, confirmed, reading);
    AllProceeds(env, options, name, m, confirmed, reading);
  }

  lemma AllProceeds(env: Env, options: Options.Flags, name: string, m: string,
                    confirmed: bool, reading: Reading)
    requires options.all
    ensures var r := Proceed(env, Options.ApplyAll(options), name, m, confirmed, reading);
            |r.calls| >= 2
            && r.calls[0] == MakeModel(env.base(name), options.force, true, true, true, true)
            && r.calls[1] == MakeResource(name, options.force)
            && (r.result <==> forall i :: 0 <= i < |env.methods| ==>
                  Accepted(env, Options.ApplyAll(options), name, env.methods[i],
                           WrittenBefore(name, env.methods, i), reading))
  {
    var flags := Options.ApplyAll(options);
    var pre := Prelude(env, flags, name);
    assert pre == [MakeModel(env.base(name), options.force, true, true, true, true), MakeResource(name, options.force)];
    assert !Declined(env, flags, m, confirmed) && Methods(env, flags, m) == env.methods;
    var run := RunEach(Creations(env, flags, name, env.methods), reading);
    assert Proceed(env, flags, name, m, confirmed, reading) == Run(pre + run.calls, run.writes, run.result);
    RunAccepts(env, flags, name, env.methods, reading);
    assert (pre + run.calls)[0] == pre[0] && (pre + run.calls)[1] == pre[1];
  }

  /** As written, a crud run whose first method gets a page or a modal made
      successfully stops right there and fails, having written one controller;
      read as meant, the same run goes on to the next method. */
  lemma CrudStopsAfterFirstPage(env: Env, flags: Options.Flags, name: string, m: string, confirmed: bool)
    requires flags.crud && |env.methods| >= 2
    requires !Conflict(env, flags, name, env.methods[0], {}) && ChooseStub(env, flags, env.methods[0]) != NoStub
    requires env.exitCode(StubCalls(env, flags, name, env.methods[0])[0]) == 0
    requires !Conflict(env, flags, name, env.methods[1], {ControllerPath(name, env.methods[0])})
    ensures !Proceed(env, flags, name, m, confirmed, AsWritten).result
    ensures |Proceed(env, flags, name, m, confirmed, AsWritten).writes| == 1
    ensures |Proceed(env, flags, name, m, confirmed, Corrected).writes| >= 2
  {
    var os := Creations(env, flags, name, env.methods);
    FirstCreations(env, flags, name, env.methods);
    AsWrittenInvertsExitCode(env, flags, name, env.methods[0], {});
    CorrectedAccepts(env, flags, name, env.methods[0], {});
    assert !Succeeded(AsWritten, os[0].value);
    assert Succeeded(Corrected, os[0].value);
    RunEachWritesFirst(os[1..], Corrected);
    assert os[1..][0] == os[1];
  }

  /** The same holds without a crud run: a single creation whose page or modal
      is made successfully answers `false` as written, so even the plain run
      for one page method fails; read as meant, it succeeds. Both write the
      one controller. */
  lemma SinglePageRunFails(env: Env, flags: Options.Flags, name: string, m: string, confirmed: bool)
    requires !flags.crud && !Declined(env, flags, m, confirmed)
    requires !Conflict(env, flags, name, m, {}) && ChooseStub(env, flags, m) != NoStub
    requires env.exitCode(StubCalls(env, flags, name, m)[0]) == 0
    ensures !Proceed(env, flags, name, m, confirmed, AsWritten).result
    ensures Proceed(env, flags, name, m, confirmed, Corrected).result
    ensures |Proceed(env, flags, name, m, confirmed, AsWritten).writes| == 1
    ensures |Proceed(env, flags, name, m, confirmed, Corrected).writes| == 1
  {
    var o := CreateConquest(env, flags, name, m, {});
    assert Methods(env, flags, m) == [m];
    SingleCreation(env, flags, name, m);
    AsWrittenInvertsExitCode(env, flags, name, m, {});
    CorrectedAccepts(env, flags, name, m, {});
    RunEachSingle(o, AsWritten);
    RunEachSingle(o, Corrected);
  }
}

=== FILE: names.dfy ===
/**
 The names one run derives: the normalised method, the controller, request
 and view-resource names built from the class name and the method, and the
 fully qualified namespaces and classes written into the controller stub.
 */
module Names {
  import opened Text

  /** The method argument as the command reads it: trimmed, lower-cased,
      first letter upper-cased (ASCII letters only). */
  function NormaliseMethod(arg: string): (m: string)
    ensures |m| == |Trim(arg)|
  {
    UcFirst(Lower(Trim(arg)))
  }

  /** The normalised method spells the trimmed argument up to letter case,
      with an upper-case first letter and lower-case letters after it. */
  lemma NormaliseCase(arg: string)
    ensures Lower(NormaliseMethod(arg)) == Lower(Trim(arg))
    ensures |NormaliseMethod(arg)| > 0 ==> !('a' <= NormaliseMethod(arg)[0] <= 'z')
    ensures forall k :: 1 <= k < |NormaliseMethod(arg)| ==> !('A' <= NormaliseMethod(arg)[k] <= 'Z')
  {
    var t := Trim(arg);
    var m := NormaliseMethod(arg);
    var l := Lower(t);
    if |t| > 0 {
      CaseRoundTrip(t[0]);
      assert m[0] == UpperChar(LowerChar(t[0]));
      forall k | 0 <= k < |m| ensures Lower(m)[k] == l[k] {
        if k > 0 {
          assert m[k] == l[k] == LowerChar(t[k]);
          CaseRoundTrip(t[k]);
        }
      }
    }
  }

  /** The normalised method neither starts nor ends with whitespace. */
  lemma NormaliseUnpadded(arg: string)
    ensures NormaliseMethod(arg) == []
         || (!IsTrimmable(NormaliseMethod(arg)[0]) && !IsTrimmable(NormaliseMethod(arg)[|NormaliseMethod(arg)| - 1]))
  {
    var t := Trim(arg);
    var m := NormaliseMethod(arg);
    if |t| > 0 {
      LowerCharTrimmable(t[0]);
      CaseRoundTrip(t[0]);
      LowerCharTrimmable(t[|t| - 1]);
      assert m[0] == UpperChar(LowerChar(t[0]));
      assert |t| > 1 ==> m[|m| - 1] == LowerChar(t[|t| - 1]);
    }
  }

  /** PHP's `!$method`: the empty string and `"0"` are false. */
  predicate PhpFalsy(s: string) {
    s == "" || s == "0"
  }

  /** Arguments that differ only in the case of their letters normalise to
      the same method. */
  lemma NormaliseIgnoresCase(a: string, b: string)
    requires Lower(a) == Lower(b)
    ensures NormaliseMethod(a) == NormaliseMethod(b)
  {
    TrimLower(a);
    TrimLower(b);
    var la, lb := Lower(Trim(a)), Lower(Trim(b));
    assert la == lb;
  }

  /** A normalised method normalises to itself. */
  lemma NormaliseIdempotent(a: string)
    ensures NormaliseMethod(NormaliseMethod(a)) == NormaliseMethod(a)
  {
    var m := NormaliseMethod(a);
    NormaliseUnpadded(a);
    TrimKeepsUnpadded(m);
    NormaliseCase(a);
  }

  /** The view resource name: the class name followed by the method. */
  function Resource(name: string, m: string): string {
    name + m
  }

  function Controller(name: string, m: string): string {
    Resource(name, m) + "Controller"
  }

  function Request(name: string, m: string): string {
    Resource(name, m) + "Request"
  }

  /** The controller, request and resource names share the resource as a
      prefix and differ only in their suffix. */
  lemma NamesShareResource(name: string, m: string)
    ensures Resource(name, m) <= Controller(name, m)
    ensures Resource(name, m) <= Request(name, m)
    ensures Controller(name, m) != Request(name, m)
    ensures name <= Resource(name, m)
  {
    var r := Resource(name, m);
    assert Controller(name, m)[|r|] == 'C';
    assert Request(name, m)[|r|] == 'R';
  }

  /** Each of the three names determines the other two. */
  lemma NamesDetermineEachOther(n1: string, m1: string, n2: string, m2: string)
    ensures Controller(n1, m1) == Controller(n2, m2) <==> Resource(n1, m1) == Resource(n2, m2)
    ensures Request(n1, m1) == Request(n2, m2) <==> Resource(n1, m1) == Resource(n2, m2)
  {
    var r1, r2 := Resource(n1, m1), Resource(n2, m2);
    if Controller(n1, m1) == Controller(n2, m2) {
      assert r1 == Controller(n1, m1)[..|r1|];
    }
    if Request(n1, m1) == Request(n2, m2) {
      assert r1 == Request(n1, m1)[..|r1|];
    }
  }

  const ControllersRoot := "App/Http/Controllers/"

  /** The path segments of `App/Http/Controllers/`. */
  const RootSegments: seq<string> := ["App", "Http", "Controllers"]

  /** The namespace of a controller class: prefix `App/Http/Controllers/`,
      split on `/`, drop the last segment, join with `\`. */
  function ControllerNamespace(controller: string): string {
    var ps := Pieces(ControllersRoot + controller, "/");
    JoinWith(ps[..|ps| - 1], "\\")
  }

  /** The path of a controller splits into the root's segments and its own. */
  lemma ControllerPathPieces(controller: string)
    ensures Pieces(ControllersRoot + controller, "/") == RootSegments + Pieces(controller, "/")
  {
    assert ControllersRoot + controller == "App" + "/" + "Http" + "/" + "Controllers" + "/" + controller;
    PiecesAfterThreeSegments("App", "Http", "Controllers", controller, '/');
  }

  /** Joining the root's segments with more segments after them. */
  lemma JoinUnderRoot(rest: seq<string>)
    ensures JoinWith(RootSegments + rest, "\\") ==
      if rest == [] then "App\\Http\\Controllers" else "App\\Http\\Controllers\\" + JoinWith(rest, "\\")
  {
    assert JoinWith(RootSegments, "\\") == "App\\Http\\Controllers" by {
      assert RootSegments[1..] == ["Http", "Controllers"];
      assert RootSegments[1..][1..] == ["Controllers"];
    }
    if rest != [] {
      JoinWithConcat(RootSegments, rest, "\\");
    } else {
      assert RootSegments + rest == RootSegments;
    }
  }

  /** The segments the namespace keeps: the root's and all of the controller's but its last. */
  lemma NamespaceKeeps(controller: string)
    ensures |Pieces(controller, "/")| > 0
    ensures Pieces(ControllersRoot + controller, "/")[..|Pieces(ControllersRoot + controller, "/")| - 1]
         == RootSegments + Pieces(controller, "/")[..|Pieces(controller, "/")| - 1]
  {
    ControllerPathPieces(controller);
  }

  /** The namespace has no `/`. */
  lemma NamespaceHasNoSlash(controller: string)
    ensures '/' !in ControllerNamespace(controller)
  {
    var ps := Pieces(ControllersRoot + controller, "/");
    var kept := ps[..|ps| - 1];
    forall k | 0 <= k < |kept| ensures '/' !in kept[k] {
      PiecesHaveNoSeparator(ControllersRoot + controller, "/");
      assert kept[k] == ps[k];
      if '/' in kept[k] { CharContained(kept[k], '/'); }
    }
    CharNotInJoin(kept, "\\", '/');
  }

  /** The namespace starts with `App\Http\Controllers`. */
  lemma NamespaceUnderRoot(controller: string)
    ensures "App\\Http\\Controllers" <= ControllerNamespace(controller)
  {
    NamespaceKeeps(controller);
    var own := Pieces(controller, "/");
    JoinUnderRoot(own[..|own| - 1]);
  }

  /** The namespace's `\`-segments are the controller path's `/`-segments
      without the last, so it has exactly one segment fewer. */
  lemma NamespaceSegments(controller: string)
    requires '\\' !in controller
    ensures Pieces(ControllerNamespace(controller), "\\") ==
      Pieces(ControllersRoot + controller, "/")[..|Pieces(ControllersRoot + controller, "/")| - 1]
  {
    var path := ControllersRoot + controller;
    assert |Pieces(path, "/")| >= 2 by {
      ControllerPathPieces(controller);
    }
    assert '\\' !in path;
    ExplodeOfDropLast(path, '/', '\\');
  }

  /** A controller without a directory lives in `App\Http\Controllers`. */
  lemma NamespaceOfFlat(controller: string)
    requires '/' !in controller
    ensures ControllerNamespace(controller) == "App\\Http\\Controllers"
  {
    ControllerPathPieces(controller);
    PiecesWithoutSeparator(controller, '/');
    JoinUnderRoot([]);
    assert (RootSegments + [controller])[..3] == RootSegments;
  }

  /** A controller under a directory lives in that directory's namespace. */
  lemma NamespaceOfNested(dir: string, leaf: string)
    requires '/' !in leaf
    ensures ControllerNamespace(dir + "/" + leaf) == "App\\Http\\Controllers\\" + ReplaceAll(dir, "/", "\\")
  {
    ControllerPathPieces(dir + "/" + leaf);
    PiecesConcat(dir, leaf, '/');
    PiecesWithoutSeparator(leaf, '/');
    var pd := Pieces(dir, "/");
    assert (RootSegments + (pd + [leaf]))[..|RootSegments + (pd + [leaf])| - 1] == RootSegments + pd;
    JoinUnderRoot(pd);
    ReplaceAllIsJoinOfPieces(dir, "/", "\\");
  }

  /** A controller one directory deep lives in that directory's namespace. */
  lemma NamespaceOfOneDirectory(dir: string, leaf: string)
    requires '/' !in dir && '/' !in leaf
    ensures ControllerNamespace(dir + "/" + leaf) == "App\\Http\\Controllers\\" + dir
  {
    NamespaceOfNested(dir, leaf);
    assert !Contains(dir, "/") by {
      if Contains(dir, "/") { ContainsFirstChar(dir, "/"); }
    }
    ReplaceAllWithoutOccurrence(dir, "/", "\\");
  }

  /** `Admin/UserIndexController` lives in `App\Http\Controllers\Admin`. */
  lemma NamespaceOfAdminUser(name: string, m: string)
    requires name == "Admin/User" && m == "Index"
    ensures ControllerNamespace(Controller(name, m)) == "App\\Http\\Controllers\\Admin"
  {
    var dir, leaf := "Admin", "UserIndexController";
    assert Controller(name, m) == dir + "/" + leaf;
    NamespaceOfOneDirectory(dir, leaf);
  }

  /** The fully qualified request class: `App/Http/Requests/` and the request
      name, with `/` turned into `\`. */
  function RequestClass(name: string, m: string): string {
    ReplaceAll("App/Http/Requests/" + Request(name, m), "/", "\\")
  }

  /** The fully qualified model class: `App/Models/` and the model's base name,
      with `/` turned into `\`. */
  function ModelClass(base: string): string {
    ReplaceAll("App/Models/" + base, "/", "\\")
  }

  /** The request class lives under `App\Http\Requests`, with the request
      name's own `/` turned into `\`. */
  lemma RequestClassPrefix(name: string, m: string)
    ensures RequestClass(name, m)
         == "App" + "\\" + "Http" + "\\" + "Requests" + "\\" + ReplaceAll(Request(name, m), "/", "\\")
  {
    var req := Request(name, m);
    assert "App/Http/Requests/" + req == "App" + "/" + "Http" + "/" + "Requests" + "/" + req;
    ReplaceCharAfterThreeSegments("App", "Http", "Requests", req, '/', "\\");
  }

  /** No `/` is left in the request class. */
  lemma RequestClassNoSlash(name: string, m: string)
    ensures '/' !in RequestClass(name, m)
  {
    ReplaceCharRemovesIt("App/Http/Requests/" + Request(name, m), '/', "\\");
  }

  /** The model class lives under `App\Models`, with the base name's own `/`
      turned into `\`. */
  lemma ModelClassPrefix(base: string)
    ensures ModelClass(base) == "App" + "\\" + "Models" + "\\" + ReplaceAll(base, "/", "\\")
  {
    var inner := "Models" + "/" + base;
    assert "App/Models/" + base == "App" + "/" + inner;
    ReplaceCharAfterSegment("App", inner, '/', "\\");
    ReplaceCharAfterSegment("Models", base, '/', "\\");
  }

  /** No `/` is left in the model class. */
  lemma ModelClassNoSlash(base: string)
    ensures '/' !in ModelClass(base)
  {
    ReplaceCharRemovesIt("App/Models/" + base, '/', "\\");
  }
}

=== FILE: options.dfy ===
/**
 The command's options and the `--all` shorthand, which switches on the
 eight options that build a complete resource.
 */
module Options {

  /** The option values a run reads. `file` is the route file, `""` when none was given. */
  datatype Flags = Flags(
    force: bool, modal: bool, page: bool, form: bool,
    model: bool, policy: bool, migration: bool, seed: bool, factory: bool, resource: bool,
    crud: bool, route: bool, file: string, all: bool)

  /** The command's on/off options. */
  datatype Opt = Force | Modal | Page | Form | Model | Policy | Migration | Seed
               | Factory | Resource | Crud | Route | All

  const Opts: set<Opt> :=
    {Force, Modal, Page, Form, Model, Policy, Migration, Seed, Factory, Resource, Crud, Route, All}

  /** Whether option `o` is on. */
  function IsOn(f: Flags, o: Opt): bool {
    match o
    case Force => f.force
    case Modal => f.modal
    case Page => f.page
    case Form => f.form
    case Model => f.model
    case Policy => f.policy
    case Migration => f.migration
    case Seed => f.seed
    case Factory => f.factory
    case Resource => f.resource
    case Crud => f.crud
    case Route => f.route
    case All => f.all
  }

  /** The on/off options that are on. */
  function Enabled(f: Flags): set<Opt> {
    set o | o in Opts && IsOn(f, o)
  }

  /** The options `--all` switches on. */
  const AllImplied: set<Opt> := {Model, Factory, Seed, Migration, Policy, Resource, Crud, Route}

  lemma AllImpliedSize()
    ensures |AllImplied| == 8
  {
  }

  /** The `--all` expansion at the start of a run. */
  function ApplyAll(f: Flags): (g: Flags)
    ensures f.all ==> g.model && g.factory && g.seed && g.migration && g.policy && g.resource && g.crud && g.route
    ensures g.force == f.force && g.page == f.page && g.modal == f.modal && g.form == f.form
    ensures g.file == f.file && g.all == f.all
    ensures !f.all ==> g == f
  {
    if f.all then
      f.(model := true, factory := true, seed := true, migration := true,
         policy := true, resource := true, crud := true, route := true)
    else f
  }

  /** `--all` adds exactly the eight options it implies to those already on,
      and nothing else. */
  lemma ApplyAllEnables(f: Flags)
    ensures Enabled(ApplyAll(f)) == if f.all then Enabled(f) + AllImplied else Enabled(f)
  {
    var g := ApplyAll(f);
    if f.all {
      forall o | o in Opts ensures IsOn(g, o) == (IsOn(f, o) || o in AllImplied) {
      }
    }
  }

  /** Expanding twice is expanding once. */
  lemma ApplyAllIdempotent(f: Flags)
    ensures ApplyAll(ApplyAll(f)) == ApplyAll(f)
  {
  }

  /** Expanding never switches an option off. */
  lemma ApplyAllMonotone(f: Flags)
    ensures Enabled(f) <= Enabled(ApplyAll(f))
  {
    ApplyAllEnables(f);
  }
}

=== FILE: runs.dfy ===
/**
 What a controller creation answers and how the run reads the answers: the
 run walks its creations in order and stops at the first one it does not
 take for a success.
 */
module Runs {
  import opened Collaborators

  /** A value a creation returns. */
  datatype PhpValue = Bool(b: bool) | Int(i: int)

  /** How the run reads a creation's value. */
  datatype Reading =
    | /** PHP truthiness: `false` and `0` fail, anything else succeeds. */
      AsWritten
    | /** `false` fails, `true` succeeds, and an exit code succeeds when it is 0. */
      Corrected

  predicate Succeeded(reading: Reading, v: PhpValue) {
    match v
    case Bool(b) => b
    case Int(i) => if reading == AsWritten then i != 0 else i == 0
  }

  /** A file the run writes. */
  datatype Written = Written(path: string, text: string)

  /** The paths of some written files. */
  function Paths(ws: seq<Written>): set<string> {
    set w | w in ws :: w.path
  }

  /** What one creation does. */
  datatype Outcome = Outcome(calls: seq<Call>, writes: seq<Written>, value: PhpValue)

  /** What a whole run does: the sub-commands in order, the files written in
      order, and the command's answer. */
  datatype Run = Run(calls: seq<Call>, writes: seq<Written>, result: bool)

  /** All sub-commands of a sequence of creations, in order. */
  function CallsOf(os: seq<Outcome>): seq<Call>
    decreases |os|
  {
    if |os| == 0 then [] else os[0].calls + CallsOf(os[1..])
  }

  /** All files written by a sequence of creations, in order. */
  function WritesOf(os: seq<Outcome>): seq<Written>
    decreases |os|
  {
    if |os| == 0 then [] else os[0].writes + WritesOf(os[1..])
  }

  /** How many creations the run gets to: up to and including the first
      failure, or all of them. */
  function Tried(os: seq<Outcome>, reading: Reading): (n: nat)
    ensures n <= |os|
    ensures forall i :: 0 <= i < n - 1 ==> Succeeded(reading, os[i].value)
    ensures n < |os| ==> 0 < n && !Succeeded(reading, os[n - 1].value)
    decreases |os|
  {
    if |os| == 0 then 0
    else if !Succeeded(reading, os[0].value) then 1
    else 1 + Tried(os[1..], reading)
  }

  /** The early-return loop over the creations. */
  function RunEach(os: seq<Outcome>, reading: Reading): (r: Run)
    ensures r.result <==> forall i :: 0 <= i < |os| ==> Succeeded(reading, os[i].value)
    decreases |os|
  {
    if |os| == 0 then Run([], [], true)
    else if !Succeeded(reading, os[0].value) then Run(os[0].calls, os[0].writes, false)
    else
      var rest := RunEach(os[1..], reading);
      assert forall i :: 1 <= i < |os| ==> os[i] == os[1..][i - 1];
      Run(os[0].calls + rest.calls, os[0].writes + rest.writes, rest.result)
  }

  /** The loop makes the sub-command calls of the creations it gets to, and
      no others. */
  lemma {:induction false} RunEachCalls(os: seq<Outcome>, reading: Reading)
    ensures RunEach(os, reading).calls == CallsOf(os[..Tried(os, reading)])
    decreases |os|
  {
    if |os| > 0 {
      var n := Tried(os, reading);
      var p := os[..n];
      assert p[0] == os[0];
      if !Succeeded(reading, os[0].value) {
        assert p[1..] == [];
        assert CallsOf(p) == os[0].calls + CallsOf([]);
      } else {
        RunEachCalls(os[1..], reading);
        assert p[1..] == os[1..][..n - 1];
        assert CallsOf(p) == os[0].calls + CallsOf(os[1..][..n - 1]);
      }
    }
  }

  /** The loop writes the files of the creations it gets to, and no others. */
  lemma {:induction false} RunEachWrites(os: seq<Outcome>, reading: Reading)
    ensures RunEach(os, reading).writes == WritesOf(os[..Tried(os, reading)])
    decreases |os|
  {
    if |os| > 0 {
      var n := Tried(os, reading);
      var p := os[..n];
      assert p[0] == os[0];
      if !Succeeded(reading, os[0].value) {
        assert p[1..] == [];
        assert WritesOf(p) == os[0].writes + WritesOf([]);
      } else {
        RunEachWrites(os[1..], reading);
        assert p[1..] == os[1..][..n - 1];
        assert WritesOf(p) == os[0].writes + WritesOf(os[1..][..n - 1]);
      }
    }
  }

  /** When every creation wrote one file, the files are theirs, one each, in order. */
  lemma {:induction false} WritesOfSingles(os: seq<Outcome>)
    requires forall i :: 0 <= i < |os| ==> |os[i].writes| == 1
    ensures |WritesOf(os)| == |os|
    ensures forall i :: 0 <= i < |os| ==> WritesOf(os)[i] == os[i].writes[0]
    decreases |os|
  {
    if |os| > 0 {
      assert forall i :: 0 <= i < |os[1..]| ==> os[1..][i] == os[i + 1];
      WritesOfSingles(os[1..]);
    }
  }

  /** A loop that succeeds over creations that each write one file when they
      succeed writes exactly those files, in order. */
  lemma RunEachSucceeded(os: seq<Outcome>, reading: Reading)
    requires RunEach(os, reading).result
    requires forall i :: 0 <= i < |os| && Succeeded(reading, os[i].value) ==> |os[i].writes| == 1
    ensures |RunEach(os, reading).writes| == |os|
    ensures forall i :: 0 <= i < |os| ==> RunEach(os, reading).writes[i] == os[i].writes[0]
  {
    RunEachWrites(os, reading);
    assert Tried(os, reading) == |os|;
    assert os[..|os|] == os;
    WritesOfSingles(os);
  }

  /** The first creation's files always come first. */
  lemma RunEachWritesFirst(os: seq<Outcome>, reading: Reading)
    requires |os| > 0
    ensures os[0].writes <= RunEach(os, reading).writes
  {
  }

  /** A loop over one creation does what that creation does and answers whether it succeeded. */
  lemma RunEachSingle(o: Outcome, reading: Reading)
    ensures RunEach([o], reading) == Run(o.calls, o.writes, Succeeded(reading, o.value))
  {
    assert [o][1..] == [];
    assert o.calls + [] == o.calls && o.writes + [] == o.writes;
  }
}

=== FILE: substitution.dfy ===
/**
 The controller stub is turned into a controller by a fixed sequence of
 `str_replace` passes: namespace, request, Inertia import, model import,
 invoke signature, response body, blank-line collapse, class name. Each pass
 replaces every spelling of its placeholder with a text chosen from the
 options and from the method's classification. The namespace and class-name
 passes belong to the generator base class and are taken from the
 environment; the six in between are modelled here.
 */
module Substitution {
  import opened Text
  import opened Collaborators
  import Options
  import opened Names

  const RequestSpellings: seq<string> := ["DummyRequest", "{{ request }}", "{{request}}"]
  const InertiaSpellings: seq<string> := ["{{ inertia }}", "{{inertia}}"]
  const ModelSpellings: seq<string> := ["{{ model }}", "{{model}}"]
  const InvokeSpellings: seq<string> := ["{{ invoke }}", "{{invoke}}"]
  const ResponseSpellings: seq<string> := ["{{ response }}", "{{response}}"]

  /** The import of the Inertia facade. */
  const InertiaUse := "use Inertia\\Inertia;"

  /** Three and two Windows line breaks. */
  const ThreeCrLf := "\r\n\r\n\r\n"
  const TwoCrLf := "\r\n\r\n"

  // ---------------------------------------------------------------- request

  /** Every request spelling becomes the fully qualified request class. */
  function RequestPass(stub: string, requestClass: string): string {
    ReplaceEach(stub, RequestSpellings, requestClass)
  }

  // ---------------------------------------------------------------- inertia

  /** The Inertia import, for a method that renders through Inertia. */
  function InertiaImport(env: Env, m: string): string {
    if !env.isNotInertiable(m) then InertiaUse else ""
  }

  function InertiaPass(stub: string, env: Env, m: string): string {
    ReplaceEach(stub, InertiaSpellings, InertiaImport(env, m))
  }

  // ---------------------------------------------------------------- model

  /** The model import: `use <class>;` with the model option, nothing without. */
  function ModelImport(model: bool, modelClass: string): string {
    if model then "use " + modelClass + ";" else ""
  }

  function ModelPass(stub: string, model: bool, modelClass: string): string {
    ReplaceEach(stub, ModelSpellings, ModelImport(model, modelClass))
  }

  // ---------------------------------------------------------------- invoke

  const InvokeHead := "public function __invoke("

  /** One parameter of the signature: its type, a space, `$` and its name. */
  function Param(typeName: string, varName: string): string {
    typeName + " $" + varName
  }

  /** The `__invoke` signature: a `$request` parameter typed by the request's
      base name and, with the model option, a second parameter typed by the
      model's base name and named by its camel form. */
  function InvokeSignature(env: Env, name: string, m: string, model: bool): string {
    var request := Param(env.base(Request(name, m)), "request");
    if model then
      var modelName := env.base(name);
      InvokeHead + request + ", " + Param(modelName, env.camel(modelName)) + ")"
    else
      InvokeHead + request + ")"
  }

  function InvokePass(stub: string, sig: string): string {
    ReplaceEach(stub, InvokeSpellings, sig)
  }

  // ---------------------------------------------------------------- response

  /** The three response bodies. */
  datatype Response = Render | ModalRender | Back

  /** Which response a method gets: a page render for page methods and, with
      the page option, for every method rendered through Inertia; otherwise a
      modal render for modal methods and, with the modal option, for every
      method rendered through Inertia; otherwise `back()`. */
  function ChooseResponse(env: Env, flags: Options.Flags, m: string): Response {
    if env.isPage(m) || (flags.page && !env.isNotInertiable(m)) then Render
    else if env.isModal(m) || (flags.modal && !env.isNotInertiable(m)) then ModalRender
    else Back
  }

  /** The properties handed to the view: the model under its camel name, or none. */
  function Props(env: Env, name: string, model: bool): string {
    if model then
      var c := env.camel(env.base(name));
      "'" + c + "' => $" + c
    else ""
  }

  /** The literal text of each response body. */
  function ResponseText(k: Response, resource: string, props: string, baseRoute: string): string {
    match k
    case Render => InertiaCall("render", resource, props, "")
    case ModalRender => InertiaCall("modal", resource, props, "->baseRoute(" + baseRoute + ")")
    case Back => "return back();"
  }

  /** `return Inertia::<fn>('<resource>', [<props>])<suffix>;` over four lines. */
  function InertiaCall(fn: string, resource: string, props: string, suffix: string): string {
    InertiaOpen(fn, resource) + "\n\t\t\t" + props + "\n\t\t])" + suffix + ";"
  }

  /** How an Inertia response opens: `return Inertia::<fn>('<resource>', [`. */
  function InertiaOpen(fn: string, resource: string): string {
    "return Inertia::" + fn + "('" + resource + "', ["
  }

  function ResponsePass(stub: string, body: string): string {
    ReplaceEach(stub, ResponseSpellings, body)
  }

  // ---------------------------------------------------------------- blank lines

  /** Three Windows line breaks in a row become two, in one left-to-right scan. */
  function CollapseBlankLines(s: string): (r: string)
    ensures |r| <= |s|
    ensures !Contains(s, ThreeCrLf) ==> r == s
  {
    var r := ReplaceAll(s, ThreeCrLf, TwoCrLf);
    assert !Contains(s, ThreeCrLf) ==> r == s by {
      if !Contains(s, ThreeCrLf) { ReplaceAllWithoutOccurrence(s, ThreeCrLf, TwoCrLf); }
    }
    r
  }

  // ---------------------------------------------------------------- pipeline

  /** The passes after the model import: invoke, response, blank lines. */
  function LatePasses(env: Env, flags: Options.Flags, name: string, m: string, s: string): string {
    var body := ResponseText(ChooseResponse(env, flags, m), Resource(name, m), Props(env, name, flags.model), env.baseRoute);
    CollapseBlankLines(ResponsePass(InvokePass(s, InvokeSignature(env, name, m, flags.model)), body))
  }

  /** The six passes this command defines, in order, applied to a stub whose
      namespace is already in place. */
  function Substitute(env: Env, flags: Options.Flags, name: string, m: string, s: string): string {
    var afterRequest := RequestPass(s, RequestClass(name, m));
    var afterInertia := InertiaPass(afterRequest, env, m);
    var afterModel := ModelPass(afterInertia, flags.model, ModelClass(env.base(name)));
    LatePasses(env, flags, name, m, afterModel)
  }

  /** The controller text: the namespace pass, the six passes, the class-name pass. */
  function BuildConquestClass(env: Env, flags: Options.Flags, name: string, m: string): string {
    var controller := Controller(name, m);
    var namespaced := env.replaceNamespace(env.stub, ControllerNamespace(controller));
    env.replaceClass(Substitute(env, flags, name, m, namespaced), env.base(controller))
  }

  // ---------------------------------------------------------------- pass properties

  /** A method rendered through Inertia gets the Inertia import wherever a
      spelling of its placeholder stood. */
  lemma InertiaPassInserts(s: string, env: Env, m: string, k: nat)
    requires !env.isNotInertiable(m) && k < |InertiaSpellings| && Contains(s, InertiaSpellings[k])
    ensures Contains(InertiaPass(s, env, m), InertiaUse)
  {
    assert FirstCharsApart(InertiaSpellings[1..], InertiaUse);
    ApartByFirstChars(InertiaSpellings[1..], InertiaUse);
    ReplaceEachInserts(s, InertiaSpellings, InertiaUse, k);
  }

  /** For any other method the pass only deletes. */
  lemma InertiaPassOnlyDeletes(s: string, env: Env, m: string)
    requires env.isNotInertiable(m)
    ensures multiset(InertiaPass(s, env, m)) <= multiset(s)
  {
    DeletionsOnlyRemove(s, InertiaSpellings);
  }

  /** With the model option the model import replaces the placeholder. */
  lemma ModelPassInserts(s: string, modelClass: string, k: nat)
    requires '{' !in modelClass && k < |ModelSpellings| && Contains(s, ModelSpellings[k])
    ensures Contains(ModelPass(s, true, modelClass), "use " + modelClass + ";")
  {
    var rep := "use " + modelClass + ";";
    assert FirstCharsApart(ModelSpellings[1..], rep) by {
      assert ModelSpellings[1..] == ["{{model}}"];
      assert '{' !in rep;
    }
    ApartByFirstChars(ModelSpellings[1..], rep);
    ReplaceEachInserts(s, ModelSpellings, rep, k);
  }

  /** Without it the pass only deletes. */
  lemma ModelPassOnlyDeletes(s: string, modelClass: string)
    ensures multiset(ModelPass(s, false, modelClass)) <= multiset(s)
  {
    DeletionsOnlyRemove(s, ModelSpellings);
  }

  /** No `{` in the request class when there is none in the request name. */
  lemma RequestClassPlain(name: string, m: string)
    requires '{' !in Request(name, m)
    ensures '{' !in RequestClass(name, m) && |RequestClass(name, m)| > 0 && RequestClass(name, m)[0] == 'A'
  {
    ReplaceAllAddsNoChar("App/Http/Requests/" + Request(name, m), "/", "\\", '{');
    RequestClassPrefix(name, m);
  }

  /** The request class replaces any of the three request spellings. */
  lemma RequestPassInserts(s: string, name: string, m: string, k: nat)
    requires '{' !in Request(name, m) && k < |RequestSpellings| && Contains(s, RequestSpellings[k])
    ensures Contains(RequestPass(s, RequestClass(name, m)), RequestClass(name, m))
  {
    var rep := RequestClass(name, m);
    RequestClassPlain(name, m);
    assert FirstCharsApart(RequestSpellings[1..], rep) by {
      assert RequestSpellings[1..] == ["{{ request }}", "{{request}}"];
    }
    ApartByFirstChars(RequestSpellings[1..], rep);
    ReplaceEachInserts(s, RequestSpellings, rep, k);
  }

  /** The request class starts with `A`, ends with the `t` of `Request`, and
      is longer than any request spelling. */
  lemma RequestClassShape(name: string, m: string)
    ensures var rc := RequestClass(name, m);
            |rc| >= 25 && rc[0] == 'A' && rc[|rc| - 1] == 't'
  {
    RequestClassPrefix(name, m);
    ReplaceCharConcat(Resource(name, m), "Request", '/', "\\");
    assert !Contains("Request", "/") by {
      if Contains("Request", "/") { ContainsCharOf("Request", "/", 0); }
    }
    ReplaceAllWithoutOccurrence("Request", "/", "\\");
  }

  /** No request spelling is left after the request pass, whatever the stub,
      when the request class holds none of them itself. */
  lemma RequestPassLeavesNoSpelling(s: string, name: string, m: string)
    requires '{' !in Request(name, m)
    requires forall k :: 0 <= k < |RequestSpellings| ==> !Contains(RequestClass(name, m), RequestSpellings[k])
    ensures forall k :: 0 <= k < |RequestSpellings| ==> !Contains(RequestPass(s, RequestClass(name, m)), RequestSpellings[k])
  {
    var rc := RequestClass(name, m);
    RequestClassPlain(name, m);
    RequestClassShape(name, m);
    assert !Contains(rc, RequestSpellings[0]) && !Contains(rc, RequestSpellings[1]) && !Contains(rc, RequestSpellings[2]);
    InsulatedByEnds(rc, "DummyRequest");
    InsulatedByEnds(rc, "{{ request }}");
    InsulatedByEnds(rc, "{{request}}");
    ReplaceEachLeavesNone(s, RequestSpellings, rc);
  }

  /** The signature has one `$` parameter, or two with the model option, as
      long as the names it is built from carry no `$` or `,` of their own. */
  lemma InvokeParameters(env: Env, name: string, m: string, model: bool)
    requires '$' !in env.base(Request(name, m)) && ',' !in env.base(Request(name, m))
    requires '$' !in env.base(name) && ',' !in env.base(name)
    requires '$' !in env.camel(env.base(name)) && ',' !in env.camel(env.base(name))
    ensures Occurrences(InvokeSignature(env, name, m, model), '$') == if model then 2 else 1
    ensures Occurrences(InvokeSignature(env, name, m, model), ',') == if model then 1 else 0
  {
    assert '$' !in InvokeHead && ',' !in InvokeHead;
    var modelName := env.base(name);
    SignatureCounts(InvokeHead, env.base(Request(name, m)), "request", modelName, env.camel(modelName), model);
  }

  /** The counting behind `InvokeParameters`, for any head free of `$` and `,`. */
  lemma SignatureCounts(head: string, requestType: string, requestVar: string,
                        modelType: string, modelVar: string, model: bool)
    requires '$' !in head && ',' !in head
    requires '$' !in requestType && ',' !in requestType && '$' !in requestVar && ',' !in requestVar
    requires '$' !in modelType && ',' !in modelType && '$' !in modelVar && ',' !in modelVar
    ensures var sig := if model then head + Param(requestType, requestVar) + ", " + Param(modelType, modelVar) + ")"
                       else head + Param(requestType, requestVar) + ")";
            Occurrences(sig, '$') == (if model then 2 else 1) &&
            Occurrences(sig, ',') == (if model then 1 else 0)
  {
    OccurrencesAbsent(head, '$');
    OccurrencesAbsent(head, ',');
    var request := Param(requestType, requestVar);
    ParamCounts(requestType, requestVar);
    OccurrencesConcat(head, request, '$');
    OccurrencesConcat(head, request, ',');
    if model {
      var second := Param(modelType, modelVar);
      ParamCounts(modelType, modelVar);
      OccurrencesConcat(head + request, ", ", '$');
      OccurrencesConcat(head + request, ", ", ',');
      OccurrencesConcat(head + request + ", ", second, '$');
      OccurrencesConcat(head + request + ", ", second, ',');
      OccurrencesConcat(head + request + ", " + second, ")", '$');
      OccurrencesConcat(head + request + ", " + second, ")", ',');
    } else {
      OccurrencesConcat(head + request, ")", '$');
      OccurrencesConcat(head + request, ")", ',');
    }
  }

  /** The parameter list, split at its commas, is the request parameter alone,
      or with the model option the request parameter and the model parameter. */
  lemma InvokeParameterList(env: Env, name: string, m: string, model: bool)
    requires ',' !in env.base(Request(name, m)) && ',' !in env.base(name) && ',' !in env.camel(env.base(name))
    ensures var sig := InvokeSignature(env, name, m, model);
            var request := Param(env.base(Request(name, m)), "request");
            var second := Param(env.base(name), env.camel(env.base(name)));
            |InvokeHead| < |sig| && sig[..|InvokeHead|] == InvokeHead && sig[|sig| - 1] == ')'
            && Pieces(sig[|InvokeHead|..|sig| - 1], ",") == if model then [request, " " + second] else [request]
  {
    var modelName := env.base(name);
    var request := Param(env.base(Request(name, m)), "request");
    var second := Param(modelName, env.camel(modelName));
    ParamHasNoComma(env.base(Request(name, m)), "request");
    ParamHasNoComma(modelName, env.camel(modelName));
    if model {
      TwoParametersSplit(InvokeHead, request, second);
    } else {
      OneParameterSplits(InvokeHead, request);
    }
  }

  lemma ParamHasNoComma(typeName: string, varName: string)
    requires ',' !in typeName && ',' !in varName
    ensures ',' !in Param(typeName, varName)
  {
    assert ',' !in " $";
  }

  /** `head(p1)` splits at its commas into `p1` alone. */
  lemma OneParameterSplits(head: string, p1: string)
    requires ',' !in p1
    ensures var sig := head + p1 + ")";
            |head| < |sig| && sig[..|head|] == head && sig[|sig| - 1] == ')'
            && Pieces(sig[|head|..|sig| - 1], ",") == [p1]
  {
    var sig := head + p1 + ")";
    assert sig[|head|..|sig| - 1] == p1;
    PiecesWithoutSeparator(p1, ',');
  }

  /** `head(p1, p2)` splits at its commas into `p1` and ` p2`. */
  lemma TwoParametersSplit(head: string, p1: string, p2: string)
    requires ',' !in p1 && ',' !in p2
    ensures var sig := head + p1 + ", " + p2 + ")";
            |head| < |sig| && sig[..|head|] == head && sig[|sig| - 1] == ')'
            && Pieces(sig[|head|..|sig| - 1], ",") == [p1, " " + p2]
  {
    var sig := head + p1 + ", " + p2 + ")";
    assert sig[|head|..|sig| - 1] == p1 + [','] + (" " + p2);
    PiecesAfterSegment(p1, " " + p2, ',');
    assert ',' !in " " + p2;
    PiecesWithoutSeparator(" " + p2, ',');
  }

  /** A parameter has one `$` and no `,` when its type and name have none. */
  lemma ParamCounts(typeName: string, varName: string)
    requires '$' !in typeName && ',' !in typeName && '$' !in varName && ',' !in varName
    ensures Occurrences(Param(typeName, varName), '$') == 1
    ensures Occurrences(Param(typeName, varName), ',') == 0
  {
    OccurrencesAbsent(typeName, '$');
    OccurrencesAbsent(typeName, ',');
    OccurrencesAbsent(varName, '$');
    OccurrencesAbsent(varName, ',');
    OccurrencesConcat(typeName, " $", '$');
    OccurrencesConcat(typeName, " $", ',');
    OccurrencesConcat(typeName + " $", varName, '$');
    OccurrencesConcat(typeName + " $", varName, ',');
  }

  /** How often a character occurs in a text. */
  function Occurrences(s: string, c: char): nat
    decreases |s|
  {
    if |s| == 0 then 0 else (if s[0] == c then 1 else 0) + Occurrences(s[1..], c)
  }

  lemma {:induction false} OccurrencesAbsent(s: string, c: char)
    requires c !in s
    ensures Occurrences(s, c) == 0
    decreases |s|
  {
    if |s| > 0 {
      assert forall j :: 0 <= j < |s[1..]| ==> s[1..][j] == s[1 + j];
      OccurrencesAbsent(s[1..], c);
    }
  }

  lemma {:induction false} OccurrencesConcat(a: string, b: string, c: char)
    ensures Occurrences(a + b, c) == Occurrences(a, c) + Occurrences(b, c)
    decreases |a|
  {
    if |a| == 0 {
      assert a + b == b;
    } else {
      assert (a + b)[1..] == a[1..] + b;
      OccurrencesConcat(a[1..], b, c);
    }
  }

  /** A method not rendered through Inertia ignores the page and modal options:
      it gets a page render if it is a page method, a modal render if it is a
      modal method, and `back()` otherwise. */
  lemma NonInertiableResponse(env: Env, flags: Options.Flags, m: string)
    requires env.isNotInertiable(m)
    ensures ChooseResponse(env, flags, m) ==
      if env.isPage(m) then Render else if env.isModal(m) then ModalRender else Back
  {
  }

  /** Different responses have different texts, whatever they are built from. */
  lemma ResponseTextsDiffer(k1: Response, k2: Response, r1: string, r2: string,
                            p1: string, p2: string, b1: string, b2: string)
    requires k1 != k2
    ensures ResponseText(k1, r1, p1, b1) != ResponseText(k2, r2, p2, b2)
  {
    var t1, t2 := ResponseText(k1, r1, p1, b1), ResponseText(k2, r2, p2, b2);
    if k1 != Back && k2 != Back {
      assert t1[16] != t2[16];
    } else {
      assert t1[7] != t2[7];
    }
  }

  /** A render names its view: two renders of the same kind that agree name the
      same resource, as long as the resource holds no quote. */
  lemma ResponseNamesResource(k: Response, r1: string, r2: string, props: string, baseRoute: string)
    requires k != Back && '\'' !in r1 && '\'' !in r2
    requires ResponseText(k, r1, props, baseRoute) == ResponseText(k, r2, props, baseRoute)
    ensures r1 == r2
  {
    var fn := if k == Render then "render" else "modal";
    var suffix := if k == Render then "" else "->baseRoute(" + baseRoute + ")";
    InertiaCallNamesResource(fn, r1, r2, props, suffix);
  }

  /** The resource of an Inertia call can be read back from the call. */
  lemma InertiaCallNamesResource(fn: string, r1: string, r2: string, props: string, suffix: string)
    requires '\'' !in r1 && '\'' !in r2
    requires InertiaCall(fn, r1, props, suffix) == InertiaCall(fn, r2, props, suffix)
    ensures r1 == r2
  {
    var head := "return Inertia::" + fn + "('";
    var tail := "', [" + "\n\t\t\t" + props + "\n\t\t])" + suffix + ";";
    assert InertiaCall(fn, r1, props, suffix) == head + r1 + tail;
    assert InertiaCall(fn, r2, props, suffix) == head + r2 + tail;
    FramedInjective(head, r1, r2, tail);
  }

  /** A quote-free text framed by the same head and a tail that opens on a
      quote can be read back from the frame. */
  lemma FramedInjective(head: string, r1: string, r2: string, tail: string)
    requires '\'' !in r1 && '\'' !in r2 && |tail| > 0 && tail[0] == '\''
    requires head + r1 + tail == head + r2 + tail
    ensures r1 == r2
  {
    QuoteEnds(head, r1, tail);
    QuoteEnds(head, r2, tail);
    assert (head + r1 + tail)[|head|..|head| + |r1|] == r1;
    assert (head + r2 + tail)[|head|..|head| + |r2|] == r2;
  }

  /** In `head + r + tail`, with `tail` opening on a quote that `r` lacks, the
      first quote after `head` closes `r`. */
  lemma QuoteEnds(head: string, r: string, tail: string)
    requires '\'' !in r && |tail| > 0 && tail[0] == '\''
    ensures (head + r + tail)[|head| + |r|] == '\''
    ensures forall i :: |head| <= i < |head| + |r| ==> (head + r + tail)[i] != '\''
  {
    forall i | |head| <= i < |head| + |r| ensures (head + r + tail)[i] != '\'' {
      assert (head + r + tail)[i] == r[i - |head|];
    }
  }

  /** Text without Windows line breaks passes the collapse unchanged. */
  lemma CollapseLeavesLfText(s: string)
    requires '\r' !in s
    ensures CollapseBlankLines(s) == s
  {
    if Contains(s, ThreeCrLf) { ContainsFirstChar(s, ThreeCrLf); }
  }

  /** Text holding three line breaks in a row gets shorter. */
  lemma CollapseShrinks(s: string)
    requires Contains(s, ThreeCrLf)
    ensures |CollapseBlankLines(s)| < |s|
  {
    ContainsCounted(s, ThreeCrLf);
    ReplaceAllShrinks(s, ThreeCrLf, TwoCrLf);
  }

  /** One collapse is not a fixed point: four line breaks become three, and a
      second collapse makes them two. */
  lemma CollapseNotIdempotent(s: string)
    requires s == ThreeCrLf + "\r\n"
    ensures CollapseBlankLines(s) == ThreeCrLf
    ensures CollapseBlankLines(CollapseBlankLines(s)) == TwoCrLf
  {
    assert s[..|ThreeCrLf|] == ThreeCrLf && s[|ThreeCrLf|..] == "\r\n";
    assert ReplaceAll(s, ThreeCrLf, TwoCrLf) == TwoCrLf + ReplaceAll("\r\n", ThreeCrLf, TwoCrLf);
    assert TwoCrLf + "\r\n" == ThreeCrLf;
    var once := ThreeCrLf;
    assert once[..|ThreeCrLf|] == ThreeCrLf && once[|ThreeCrLf|..] == "";
  }

  // ---------------------------------------------------------------- pipeline properties

  /** None of the model, invoke and response spellings can disturb a text that
      opens on `u` and holds no `{`. */
  lemma LateSpellingsApart(w: string)
    requires |w| > 0 && w[0] == 'u' && '{' !in w
    ensures Apart(ModelSpellings, w) && Apart(InvokeSpellings, w) && Apart(ResponseSpellings, w)
  {
    assert 'u' !in "{{ model }}" && 'u' !in "{{model}}";
    assert 'u' !in "{{ invoke }}" && 'u' !in "{{invoke}}";
    assert 'u' !in "{{ response }}" && 'u' !in "{{response}}";
    ApartByFirstChars(ModelSpellings, w);
    ApartByFirstChars(InvokeSpellings, w);
    ApartByFirstChars(ResponseSpellings, w);
  }

  /** An import line (it opens on `u`) without `{` or a carriage return that
      stands in the text after the model pass is still there at the end. */
  lemma LatePassesKeep(env: Env, flags: Options.Flags, name: string, m: string, s: string, w: string)
    requires |w| > 0 && w[0] == 'u' && '{' !in w && '\r' !in w && Contains(s, w)
    ensures Contains(LatePasses(env, flags, name, m, s), w)
  {
    LateSpellingsApart(w);
    var sig := InvokeSignature(env, name, m, flags.model);
    var body := ResponseText(ChooseResponse(env, flags, m), Resource(name, m), Props(env, name, flags.model), env.baseRoute);
    ReplaceEachKeeps(s, InvokeSpellings, sig, w);
    var afterInvoke := InvokePass(s, sig);
    ReplaceEachKeeps(afterInvoke, ResponseSpellings, body, w);
    assert 'u' !in ThreeCrLf;
    SeparateByFirstChars(ThreeCrLf, w);
    ReplaceAllKeeps(ResponsePass(afterInvoke, body), ThreeCrLf, TwoCrLf, w);
  }

  /** An import line opens on `u` and adds no `{` or carriage return to its class. */
  lemma ImportLinePlain(x: string)
    requires '{' !in x && '\r' !in x
    ensures var w := "use " + x + ";"; |w| > 0 && w[0] == 'u' && w[|w| - 1] == ';' && '{' !in w && '\r' !in w
  {
    var w := "use " + x + ";";
    assert w == "use " + (x + ";");
    assert '{' !in "use " && '\r' !in "use " && '{' !in ";" && '\r' !in ";";
  }

  lemma InertiaUsePlain()
    ensures |InertiaUse| > 0 && InertiaUse[0] == 'u' && InertiaUse[|InertiaUse| - 1] == ';'
    ensures '{' !in InertiaUse && '\r' !in InertiaUse
  {
    ImportLinePlain("Inertia\\Inertia");
  }

  /** A method rendered through Inertia ends up importing the facade when its
      stub asks for the import. */
  lemma InertiaImportReachesOutput(env: Env, flags: Options.Flags, name: string, m: string, s: string, k: nat)
    requires !env.isNotInertiable(m) && k < |InertiaSpellings|
    requires Contains(RequestPass(s, RequestClass(name, m)), InertiaSpellings[k])
    ensures Contains(Substitute(env, flags, name, m, s), InertiaUse)
  {
    var afterRequest := RequestPass(s, RequestClass(name, m));
    InertiaPassInserts(afterRequest, env, m, k);
    var afterInertia := InertiaPass(afterRequest, env, m);
    InertiaUsePlain();
    LateSpellingsApart(InertiaUse);
    var modelImport := ModelImport(flags.model, ModelClass(env.base(name)));
    ReplaceEachKeeps(afterInertia, ModelSpellings, modelImport, InertiaUse);
    LatePassesKeep(env, flags, name, m, ModelPass(afterInertia, flags.model, ModelClass(env.base(name))), InertiaUse);
  }

  /** With the model option the model is imported when the stub asks for it,
      provided its class name holds no `{` or carriage return. */
  lemma ModelImportReachesOutput(env: Env, flags: Options.Flags, name: string, m: string, s: string, k: nat)
    requires flags.model && k < |ModelSpellings|
    requires '{' !in ModelClass(env.base(name)) && '\r' !in ModelClass(env.base(name))
    requires Contains(InertiaPass(RequestPass(s, RequestClass(name, m)), env, m), ModelSpellings[k])
    ensures Contains(Substitute(env, flags, name, m, s), "use " + ModelClass(env.base(name)) + ";")
  {
    var modelClass := ModelClass(env.base(name));
    var afterInertia := InertiaPass(RequestPass(s, RequestClass(name, m)), env, m);
    ModelPassInserts(afterInertia, modelClass, k);
    var w := "use " + modelClass + ";";
    ImportLinePlain(modelClass);
    LatePassesKeep(env, flags, name, m, ModelPass(afterInertia, true, modelClass), w);
  }

  /** Every spelling opens on `{`. */
  predicate Braced(pats: seq<string>) {
    forall k :: 0 <= k < |pats| ==> |pats[k]| > 0 && pats[k][0] == '{'
  }

  lemma SpellingsBraced()
    ensures Braced(RequestSpellings[1..]) && Braced(InertiaSpellings) && Braced(ModelSpellings)
    ensures Braced(InvokeSpellings) && Braced(ResponseSpellings)
  {
  }

  /** A pass over braced spellings leaves a text without `{` as it is. */
  lemma BracedPassLeaves(s: string, pats: seq<string>, rep: string)
    requires '{' !in s && Braced(pats)
    ensures ReplaceEach(s, pats, rep) == s
  {
    forall k | 0 <= k < |pats| ensures !Contains(s, pats[k]) {
      if Contains(s, pats[k]) { ContainsFirstChar(s, pats[k]); }
    }
  }

  /** The request pass leaves a text without `{` or `DummyRequest` as it is. */
  lemma RequestPassLeaves(s: string, requestClass: string)
    requires '{' !in s && !Contains(s, "DummyRequest")
    ensures RequestPass(s, requestClass) == s
  {
    SpellingsBraced();
    ReplaceAllWithoutOccurrence(s, RequestSpellings[0], requestClass);
    BracedPassLeaves(s, RequestSpellings[1..], requestClass);
  }

  /** A stub with no placeholder left (no `{`, no `DummyRequest`) and no
      carriage return passes the six passes unchanged. */
  lemma SubstituteLeavesPlainText(env: Env, flags: Options.Flags, name: string, m: string, s: string)
    requires '{' !in s && '\r' !in s && !Contains(s, "DummyRequest")
    ensures Substitute(env, flags, name, m, s) == s
  {
    SpellingsBraced();
    RequestPassLeaves(s, RequestClass(name, m));
    BracedPassLeaves(s, InertiaSpellings, InertiaImport(env, m));
    BracedPassLeaves(s, ModelSpellings, ModelImport(flags.model, ModelClass(env.base(name))));
    BracedPassLeaves(s, InvokeSpellings, InvokeSignature(env, name, m, flags.model));
    var body := ResponseText(ChooseResponse(env, flags, m), Resource(name, m), Props(env, name, flags.model), env.baseRoute);
    BracedPassLeaves(s, ResponseSpellings, body);
    CollapseLeavesLfText(s);
  }

  // ---------------------------------------------------------------- no placeholder left

  /** An import line cannot take part in a placeholder spelling that opens on
      `{` and holds neither `u` nor `;`. */
  lemma ImportSealed(w: string, pat: string)
    requires |w| > 0 && w[0] == 'u' && w[|w| - 1] == ';' && '{' !in w
    requires |pat| > 0 && pat[0] == '{' && 'u' !in pat && ';' !in pat
    ensures Sealed(w, pat) && Insulated(w, pat)
  {
    if Contains(w, pat) { ContainsFirstChar(w, pat); }
    SealedIsInsulated(w, pat);
  }

  lemma ImportSpellingsShape()
    ensures forall k :: 0 <= k < |InertiaSpellings| ==>
      |InertiaSpellings[k]| > 0 && InertiaSpellings[k][0] == '{' && 'u' !in InertiaSpellings[k] && ';' !in InertiaSpellings[k]
    ensures forall k :: 0 <= k < |ModelSpellings| ==>
      |ModelSpellings[k]| > 0 && ModelSpellings[k][0] == '{' && 'u' !in ModelSpellings[k] && ';' !in ModelSpellings[k]
  {
  }

  /** For a method rendered through Inertia, no Inertia placeholder is left
      after the Inertia pass, whatever the stub. */
  lemma InertiaPassLeavesNoSpelling(s: string, env: Env, m: string)
    requires !env.isNotInertiable(m)
    ensures forall k :: 0 <= k < |InertiaSpellings| ==> !Contains(InertiaPass(s, env, m), InertiaSpellings[k])
  {
    InertiaUsePlain();
    ImportSpellingsShape();
    forall k | 0 <= k < |InertiaSpellings| ensures Insulated(InertiaUse, InertiaSpellings[k]) {
      ImportSealed(InertiaUse, InertiaSpellings[k]);
    }
    ReplaceEachLeavesNone(s, InertiaSpellings, InertiaUse);
  }

  /** With the model option, no model placeholder is left after the model
      pass, whatever the stub, as long as the model class holds no `{`. */
  lemma ModelPassLeavesNoSpelling(s: string, modelClass: string)
    requires '{' !in modelClass && '\r' !in modelClass
    ensures forall k :: 0 <= k < |ModelSpellings| ==> !Contains(ModelPass(s, true, modelClass), ModelSpellings[k])
  {
    var w := "use " + modelClass + ";";
    ImportLinePlain(modelClass);
    ImportSpellingsShape();
    forall k | 0 <= k < |ModelSpellings| ensures Insulated(w, ModelSpellings[k]) {
      ImportSealed(w, ModelSpellings[k]);
    }
    ReplaceEachLeavesNone(s, ModelSpellings, w);
  }

  /** Without the model option the pass only deletes, and deleting can join
      the text around a placeholder into a new one: `{{mo{{model}}del}}`
      becomes `{{model}}`. */
  lemma ModelPassCanLeaveSpelling(modelClass: string)
    ensures ModelPass("{{mo{{model}}del}}", false, modelClass) == "{{model}}"
  {
    var s := "{{mo{{model}}del}}";
    assert !Contains(s, "{{ model }}") by {
      if Contains(s, "{{ model }}") { ContainsCharOf(s, "{{ model }}", 2); }
    }
    ReplaceAllWithoutOccurrence(s, "{{ model }}", "");
    StraddlingOccurrenceSurvives();
    assert ModelSpellings[1..] == ["{{model}}"];
  }

  // ---------------------------------------------------------------- invoke and response text

  /** A text without `{` or a carriage return: no placeholder spelling and no
      Windows line break can start inside it. */
  predicate Plain(x: string) {
    '{' !in x && '\r' !in x
  }

  lemma SignaturePiecesPlain()
    ensures |InvokeHead| > 1 && InvokeHead[0] == 'p' && InvokeHead[1] == 'u'
    ensures Plain(InvokeHead) && Plain(" $") && Plain(", ") && Plain(")") && Plain("request")
  {
  }

  /** The signature opens on `pu` and adds no `{` or carriage return to its names. */
  lemma SignaturePlain(env: Env, name: string, m: string, model: bool)
    requires Plain(env.base(Request(name, m))) && Plain(env.base(name)) && Plain(env.camel(env.base(name)))
    ensures var sig := InvokeSignature(env, name, m, model);
            |sig| > 1 && sig[0] == 'p' && sig[1] == 'u' && Plain(sig)
  {
    SignaturePiecesPlain();
    var sig := InvokeSignature(env, name, m, model);
    assert sig[..|InvokeHead|] == InvokeHead;
  }

  lemma CallPiecesPlain()
    ensures var head := "return Inertia::"; |head| > 2 && head[0] == 'r' && head[2] == 't'
    ensures Plain("return Inertia::") && Plain("('") && Plain("', [") && Plain("\n\t\t\t") && Plain("\n\t\t])") && Plain(";")
    ensures Plain("render") && Plain("modal") && Plain("") && Plain("->baseRoute(")
    ensures var back := "return back();"; |back| > 2 && back[0] == 'r' && back[2] == 't' && Plain(back)
  {
  }

  /** Every response body opens on `ret` and adds no `{` or carriage return to
      the texts it is built from. */
  lemma ResponseTextPlain(k: Response, resource: string, props: string, baseRoute: string)
    requires Plain(resource) && Plain(props) && Plain(baseRoute)
    ensures var body := ResponseText(k, resource, props, baseRoute);
            |body| > 2 && body[0] == 'r' && body[2] == 't' && Plain(body)
  {
    CallPiecesPlain();
    var body := ResponseText(k, resource, props, baseRoute);
    if k != Back {
      var fn := if k == Render then "render" else "modal";
      var suffix := if k == Render then "" else "->baseRoute(" + baseRoute + ")";
      assert body == InertiaCall(fn, resource, props, suffix);
      assert body[..16] == "return Inertia::";
    }
  }

  lemma PropsPlain(env: Env, name: string, model: bool)
    requires Plain(env.camel(env.base(name)))
    ensures Plain(Props(env, name, model))
  {
    assert Plain("'") && Plain("' => $");
  }

  /** The signature cannot overlap an invoke or a response spelling: neither
      invoke spelling holds `p`, and the one `p` of each response spelling is
      followed by `o`, not `u`. */
  lemma SignatureSpellingsSeparate(w: string)
    requires |w| > 1 && w[0] == 'p' && w[1] == 'u' && '{' !in w
    ensures Apart(InvokeSpellings, w) && Apart(ResponseSpellings, w)
  {
    assert FirstCharsApart(InvokeSpellings, w);
    ApartByFirstChars(InvokeSpellings, w);
    SeparateByMismatch(ResponseSpellings[0], w, 1);
    SeparateByMismatch(ResponseSpellings[1], w, 1);
  }

  /** A response body cannot overlap a response spelling: the one `r` of each
      spelling is followed two characters later by `s`, not `t`. */
  lemma BodySpellingsSeparate(w: string)
    requires |w| > 2 && w[0] == 'r' && w[2] == 't' && '{' !in w
    ensures Apart(ResponseSpellings, w)
  {
    SeparateByMismatch(ResponseSpellings[0], w, 2);
    SeparateByMismatch(ResponseSpellings[1], w, 2);
  }

  /** The signature replaces any invoke spelling. */
  lemma InvokePassInserts(s: string, env: Env, name: string, m: string, model: bool, k: nat)
    requires Plain(env.base(Request(name, m))) && Plain(env.base(name)) && Plain(env.camel(env.base(name)))
    requires k < |InvokeSpellings| && Contains(s, InvokeSpellings[k])
    ensures Contains(InvokePass(s, InvokeSignature(env, name, m, model)), InvokeSignature(env, name, m, model))
  {
    var sig := InvokeSignature(env, name, m, model);
    SignaturePlain(env, name, m, model);
    SignatureSpellingsSeparate(sig);
    ApartLater(InvokeSpellings, sig);
    ReplaceEachInserts(s, InvokeSpellings, sig, k);
  }

  /** Each response body replaces any response spelling. */
  lemma ResponsePassInserts(s: string, r: Response, resource: string, props: string, baseRoute: string, k: nat)
    requires Plain(resource) && Plain(props) && Plain(baseRoute)
    requires k < |ResponseSpellings| && Contains(s, ResponseSpellings[k])
    ensures Contains(ResponsePass(s, ResponseText(r, resource, props, baseRoute)), ResponseText(r, resource, props, baseRoute))
  {
    var body := ResponseText(r, resource, props, baseRoute);
    ResponseTextPlain(r, resource, props, baseRoute);
    BodySpellingsSeparate(body);
    ApartLater(ResponseSpellings, body);
    ReplaceEachInserts(s, ResponseSpellings, body, k);
  }

  /** The signature written by the invoke pass is still in the controller after
      the response pass and the blank-line collapse. */
  lemma InvokeSignatureReachesOutput(env: Env, flags: Options.Flags, name: string, m: string, s: string, k: nat)
    requires Plain(env.base(Request(name, m))) && Plain(env.base(name)) && Plain(env.camel(env.base(name)))
    requires k < |InvokeSpellings| && Contains(s, InvokeSpellings[k])
    ensures Contains(LatePasses(env, flags, name, m, s), InvokeSignature(env, name, m, flags.model))
  {
    var sig := InvokeSignature(env, name, m, flags.model);
    var body := ResponseText(ChooseResponse(env, flags, m), Resource(name, m), Props(env, name, flags.model), env.baseRoute);
    InvokePassInserts(s, env, name, m, flags.model, k);
    SignaturePlain(env, name, m, flags.model);
    SignatureSpellingsSeparate(sig);
    assert 'p' !in ThreeCrLf;
    SeparateByFirstChars(ThreeCrLf, sig);
    ResponseAndCollapseKeep(InvokePass(s, sig), body, sig);
  }

  /** A text apart from the response spellings and separate from three CRLFs
      survives the response pass and the collapse. */
  lemma ResponseAndCollapseKeep(s: string, body: string, w: string)
    requires Apart(ResponseSpellings, w) && Separate(ThreeCrLf, w) && Contains(s, w)
    ensures Contains(CollapseBlankLines(ResponsePass(s, body)), w)
  {
    ReplaceEachKeeps(s, ResponseSpellings, body, w);
    ReplaceAllKeeps(ResponsePass(s, body), ThreeCrLf, TwoCrLf, w);
  }

  /** The chosen response body written by the response pass is still in the
      controller after the blank-line collapse. */
  lemma ResponseReachesOutput(env: Env, flags: Options.Flags, name: string, m: string, s: string, k: nat)
    requires Plain(Resource(name, m)) && Plain(env.camel(env.base(name))) && Plain(env.baseRoute)
    requires k < |ResponseSpellings|
    requires Contains(InvokePass(s, InvokeSignature(env, name, m, flags.model)), ResponseSpellings[k])
    ensures Contains(LatePasses(env, flags, name, m, s),
                     ResponseText(ChooseResponse(env, flags, m), Resource(name, m), Props(env, name, flags.model), env.baseRoute))
  {
    var r := ChooseResponse(env, flags, m);
    var props := Props(env, name, flags.model);
    var body := ResponseText(r, Resource(name, m), props, env.baseRoute);
    var afterInvoke := InvokePass(s, InvokeSignature(env, name, m, flags.model));
    PropsPlain(env, name, flags.model);
    ResponsePassInserts(afterInvoke, r, Resource(name, m), props, env.baseRoute, k);
    ResponseTextPlain(r, Resource(name, m), props, env.baseRoute);
    assert 'r' !in ThreeCrLf;
    SeparateByFirstChars(ThreeCrLf, body);
    ReplaceAllKeeps(ResponsePass(afterInvoke, body), ThreeCrLf, TwoCrLf, body);
  }

  /** Where the function name of an Inertia response sits. */
  lemma InertiaOpenShape(fn: string, resource: string)
    requires |fn| > 0
    ensures |InertiaOpen(fn, resource)| > 16 && InertiaOpen(fn, resource)[16] == fn[0]
  {
    assert |"return Inertia::"| == 16;
  }

  /** Every Inertia response opens with its opening. */
  lemma InertiaOpenIsPrefix(fn: string, resource: string, props: string, suffix: string)
    ensures InertiaOpen(fn, resource) <= InertiaCall(fn, resource, props, suffix)
  {
  }

  /** How each response body opens: a page render with the resource, a modal
      render with the resource, or `return back();` and nothing else. */
  lemma ResponseTextOpens(r: Response, resource: string, props: string, baseRoute: string)
    ensures InertiaOpen("render", resource) <= ResponseText(r, resource, props, baseRoute) <==> r == Render
    ensures InertiaOpen("modal", resource) <= ResponseText(r, resource, props, baseRoute) <==> r == ModalRender
    ensures ResponseText(r, resource, props, baseRoute) == "return back();" <==> r == Back
  {
    var render, modal := InertiaOpen("render", resource), InertiaOpen("modal", resource);
    InertiaOpenShape("render", resource);
    InertiaOpenShape("modal", resource);
    var body := ResponseText(r, resource, props, baseRoute);
    match r
    case Render =>
      InertiaOpenIsPrefix("render", resource, props, "");
      assert body[16] == 'r';
    case ModalRender =>
      InertiaOpenIsPrefix("modal", resource, props, "->baseRoute(" + baseRoute + ")");
      assert body[16] == 'm';
    case Back =>
      assert |body| == 14;
  }

  /** The choice of response, read off the text the response pass writes: the
      body opens as a page render of the resource exactly for a page method or,
      with the page option, any method rendered through Inertia; as a modal
      render exactly when that fails and the same holds for modal; and it is
      `return back();` exactly when neither holds. */
  lemma ChosenResponseText(env: Env, flags: Options.Flags, name: string, m: string, props: string, baseRoute: string)
    ensures var body := ResponseText(ChooseResponse(env, flags, m), Resource(name, m), props, baseRoute);
            var page := env.isPage(m) || (flags.page && !env.isNotInertiable(m));
            var modal := env.isModal(m) || (flags.modal && !env.isNotInertiable(m));
            (InertiaOpen("render", Resource(name, m)) <= body <==> page)
            && (InertiaOpen("modal", Resource(name, m)) <= body <==> !page && modal)
            && (body == "return back();" <==> !page && !modal)
  {
    ResponseTextOpens(ChooseResponse(env, flags, m), Resource(name, m), props, baseRoute);
  }
}

=== FILE: text.dfy ===
/**
 Text primitives the scaffolding command relies on, with PHP's semantics:
 `trim`, ASCII case mapping, `str_replace` (a single left-to-right scan that
 replaces non-overlapping occurrences), `explode` and `implode`.
 */
module Text {

  /** The characters PHP's `trim` strips when it is given no character list. */
  predicate IsTrimmable(c: char) {
    c == ' ' || c == '\t' || c == '\n' || c == '\r' || c == '\0' || c == '\U{B}'
  }

  /** Drops the trimmable characters at the front. */
  function TrimLeft(s: string): (r: string)
    ensures |r| <= |s| && r == s[|s| - |r|..]
    ensures forall k :: 0 <= k < |s| - |r| ==> IsTrimmable(s[k])
    ensures r == [] || !IsTrimmable(r[0])
    decreases |s|
  {
    if |s| > 0 && IsTrimmable(s[0]) then TrimLeft(s[1..]) else s
  }

  /** Drops the trimmable characters at the back. */
  function TrimRight(s: string): (r: string)
    ensures r <= s
    ensures forall k :: |r| <= k < |s| ==> IsTrimmable(s[k])
    ensures r == [] || !IsTrimmable(r[|r| - 1])
    decreases |s|
  {
    if |s| > 0 && IsTrimmable(s[|s| - 1]) then TrimRight(s[..|s| - 1]) else s
  }

  /** PHP `trim`: strips trimmable characters from both ends. */
  function Trim(s: string): (r: string)
    ensures r == [] || (!IsTrimmable(r[0]) && !IsTrimmable(r[|r| - 1]))
  {
    TrimRight(TrimLeft(s))
  }

  /** How many characters `trim` strips from the front. */
  function Lead(s: string): nat {
    |s| - |TrimLeft(s)|
  }

  /** What `trim` removes is trimmable, and what it keeps is an infix of its input. */
  lemma TrimIsInfix(s: string)
    ensures Lead(s) + |Trim(s)| <= |s|
    ensures Trim(s) == s[Lead(s)..Lead(s) + |Trim(s)|]
    ensures forall k :: 0 <= k < Lead(s) ==> IsTrimmable(s[k])
    ensures forall k :: Lead(s) + |Trim(s)| <= k < |s| ==> IsTrimmable(s[k])
  {
    TrimKeepsInfix(s);
    TrailIsTrimmable(s, TrimLeft(s), Trim(s), Lead(s));
  }

  lemma TrimKeepsInfix(s: string)
    ensures Lead(s) + |Trim(s)| <= |s|
    ensures Trim(s) == s[Lead(s)..Lead(s) + |Trim(s)|]
  {
    PrefixOfSuffix(s, TrimLeft(s), Trim(s), Lead(s));
  }

  lemma PrefixOfSuffix(s: string, t: string, r: string, lead: nat)
    requires lead <= |s| && t == s[lead..] && r <= t
    ensures lead + |r| <= |s| && r == s[lead..lead + |r|]
  {
    assert r == t[..|r|];
    assert s[lead..lead + |r|] == s[lead..][..|r|];
  }

  lemma TrailIsTrimmable(s: string, t: string, r: string, lead: nat)
    requires lead <= |s| && t == s[lead..] && r == TrimRight(t)
    ensures forall k :: lead + |r| <= k < |s| ==> IsTrimmable(s[k])
  {
    forall k | lead + |r| <= k < |s| ensures IsTrimmable(s[k]) {
      assert s[k] == t[k - lead];
    }
  }

  lemma TrimKeepsUnpadded(s: string)
    requires s == [] || (!IsTrimmable(s[0]) && !IsTrimmable(s[|s| - 1]))
    ensures Trim(s) == s
  {
  }

  function LowerChar(c: char): char {
    if 'A' <= c <= 'Z' then (c as int - 'A' as int + 'a' as int) as char else c
  }

  function UpperChar(c: char): char {
    if 'a' <= c <= 'z' then (c as int - 'a' as int + 'A' as int) as char else c
  }

  /** Lower-casing is undone by upper-casing letters and fixes its own result. */
  lemma CaseRoundTrip(c: char)
    ensures LowerChar(UpperChar(LowerChar(c))) == LowerChar(c)
    ensures LowerChar(LowerChar(c)) == LowerChar(c)
    ensures !('A' <= LowerChar(c) <= 'Z') && !('a' <= UpperChar(c) <= 'z')
    ensures IsTrimmable(UpperChar(c)) == IsTrimmable(c)
  {
  }

  /** `Str::lower`, restricted to ASCII letters. */
  function Lower(s: string): string {
    seq(|s|, i requires 0 <= i < |s| => LowerChar(s[i]))
  }

  /** `Str::ucfirst`, restricted to ASCII letters. */
  function UcFirst(s: string): string {
    if |s| == 0 then s else [UpperChar(s[0])] + s[1..]
  }

  /** `w` occurs in `s` starting at index `i`. */
  predicate OccursAt(s: string, w: string, i: int) {
    0 <= i && i + |w| <= |s| && s[i..i + |w|] == w
  }

  ghost predicate Contains(s: string, w: string) {
    exists i :: OccursAt(s, w, i)
  }

  lemma ContainsAfter(x: string, y: string, w: string)
    requires Contains(y, w)
    ensures Contains(x + y, w)
  {
    var i :| OccursAt(y, w, i);
    assert (x + y)[|x| + i..|x| + i + |w|] == y[i..i + |w|];
    assert OccursAt(x + y, w, |x| + i);
  }

  /** Number of occurrences the left-to-right scan of `str_replace` replaces. */
  function Count(s: string, pat: string): nat
    decreases |s|
  {
    if |pat| == 0 || |s| < |pat| then 0
    else if s[..|pat|] == pat then 1 + Count(s[|pat|..], pat)
    else Count(s[1..], pat)
  }

  /** PHP `str_replace` with one search string: scans left to right and
      replaces each occurrence it meets, resuming after the replaced text.
      An empty search string leaves the subject unchanged. */
  function ReplaceAll(s: string, pat: string, rep: string): (r: string)
    ensures |rep| <= |pat| ==> |r| <= |s|
    decreases |s|
  {
    if |pat| == 0 || |s| < |pat| then s
    else if s[..|pat|] == pat then
      rep + ReplaceAll(s[|pat|..], pat, rep)
    else
      [s[0]] + ReplaceAll(s[1..], pat, rep)
  }

  /** A shorter replacement strictly shrinks a subject in which the scan
      meets the search string at least once. */
  lemma {:induction false} ReplaceAllShrinks(s: string, pat: string, rep: string)
    requires |rep| < |pat| && Count(s, pat) > 0
    ensures |ReplaceAll(s, pat, rep)| < |s|
    decreases |s|
  {
    if s[..|pat|] != pat {
      ReplaceAllShrinks(s[1..], pat, rep);
    }
  }

  /** A subject without the search string passes through unchanged. */
  lemma {:induction false} ReplaceAllWithoutOccurrence(s: string, pat: string, rep: string)
    requires !Contains(s, pat)
    ensures ReplaceAll(s, pat, rep) == s
    decreases |s|
  {
    if |pat| > 0 && |s| >= |pat| {
      assert !OccursAt(s, pat, 0);
      ContainsAfterTail(s, pat);
      ReplaceAllWithoutOccurrence(s[1..], pat, rep);
      assert s == [s[0]] + s[1..];
    }
  }

  lemma ContainsAfterTail(s: string, w: string)
    requires |s| > 0
    ensures Contains(s[1..], w) ==> Contains(s, w)
  {
    if Contains(s[1..], w) {
      assert s == [s[0]] + s[1..];
      ContainsAfter([s[0]], s[1..], w);
    }
  }

  /** PHP `str_replace` with an array of search strings and one replacement:
      each search string is replaced, in order, in the result of the previous one. */
  function ReplaceEach(s: string, pats: seq<string>, rep: string): (r: string)
    ensures (forall k :: 0 <= k < |pats| ==> !Contains(s, pats[k])) ==> r == s
    ensures (forall k :: 0 <= k < |pats| ==> |rep| <= |pats[k]|) ==> |r| <= |s|
    decreases |pats|
  {
    if |pats| == 0 then s
    else
      var s' := ReplaceAll(s, pats[0], rep);
      assert !Contains(s, pats[0]) ==> s' == s by {
        if !Contains(s, pats[0]) { ReplaceAllWithoutOccurrence(s, pats[0], rep); }
      }
      ReplaceEach(s', pats[1..], rep)
  }

  /** PHP `explode`: the pieces of `s` between the separators the scan meets. */
  function Pieces(s: string, sep: string): (ps: seq<string>)
    requires |sep| > 0
    ensures |ps| == Count(s, sep) + 1
    ensures ps[0] <= s
    decreases |s|
  {
    if |s| < |sep| then [s]
    else if s[..|sep|] == sep then [""] + Pieces(s[|sep|..], sep)
    else
      var rest := Pieces(s[1..], sep);
      [[s[0]] + rest[0]] + rest[1..]
  }

  /** No piece of `explode` contains the separator. */
  lemma {:induction false} PiecesHaveNoSeparator(s: string, sep: string)
    requires |sep| > 0
    ensures forall k :: 0 <= k < |Pieces(s, sep)| ==> !Contains(Pieces(s, sep)[k], sep)
    decreases |s|
  {
    if |s| < |sep| {
      assert forall i :: !OccursAt(s, sep, i);
    } else if s[..|sep|] == sep {
      PiecesHaveNoSeparator(s[|sep|..], sep);
      assert forall i :: !OccursAt("", sep, i);
    } else {
      PiecesHaveNoSeparator(s[1..], sep);
      var rest := Pieces(s[1..], sep);
      HeadHasNoSeparator(s, sep, rest[0]);
    }
  }

  lemma HeadHasNoSeparator(s: string, sep: string, tail: string)
    requires |sep| > 0 && |s| >= |sep| && s[..|sep|] != sep
    requires tail <= s[1..] && !Contains(tail, sep)
    ensures !Contains([s[0]] + tail, sep)
  {
    var head := [s[0]] + tail;
    forall i ensures !OccursAt(head, sep, i) {
      if i == 0 {
        assert |head| >= |sep| ==> head[..|sep|] == s[..|sep|];
      } else if 0 < i && i + |sep| <= |head| {
        assert head[i..i + |sep|] == tail[i - 1..i - 1 + |sep|];
        assert OccursAt(head, sep, i) ==> OccursAt(tail, sep, i - 1);
      }
    }
  }

  /** PHP `implode`. */
  function JoinWith(parts: seq<string>, sep: string): string
    decreases |parts|
  {
    if |parts| == 0 then ""
    else if |parts| == 1 then parts[0]
    else parts[0] + sep + JoinWith(parts[1..], sep)
  }

  lemma JoinWithExtendHead(parts: seq<string>, x: string, sep: string)
    requires |parts| > 0
    ensures JoinWith([x + parts[0]] + parts[1..], sep) == x + JoinWith(parts, sep)
  {
    var ps := [x + parts[0]] + parts[1..];
    if |parts| > 1 {
      assert ps[1..] == parts[1..];
    }
  }

  lemma JoinWithConcat(xs: seq<string>, ys: seq<string>, sep: string)
    requires |xs| > 0 && |ys| > 0
    ensures JoinWith(xs + ys, sep) == JoinWith(xs, sep) + sep + JoinWith(ys, sep)
    decreases |xs|
  {
    if |xs| == 1 {
      assert (xs + ys)[1..] == ys;
    } else {
      assert (xs + ys)[1..] == xs[1..] + ys;
      JoinWithConcat(xs[1..], ys, sep);
    }
  }

  /** `str_replace` is `implode` of `explode`: the text between the occurrences
      the scan meets is kept verbatim and each occurrence becomes `rep`. */
  lemma {:induction false} ReplaceAllIsJoinOfPieces(s: string, pat: string, rep: string)
    requires |pat| > 0
    ensures ReplaceAll(s, pat, rep) == JoinWith(Pieces(s, pat), rep)
    decreases |s|
  {
    if |s| < |pat| {
    } else if s[..|pat|] == pat {
      ReplaceAllIsJoinOfPieces(s[|pat|..], pat, rep);
      var rest := Pieces(s[|pat|..], pat);
      assert ([""] + rest)[1..] == rest;
    } else {
      ReplaceAllIsJoinOfPieces(s[1..], pat, rep);
      JoinWithExtendHead(Pieces(s[1..], pat), [s[0]], rep);
    }
  }

  lemma {:induction false} ReplaceAllWithItself(s: string, pat: string)
    ensures ReplaceAll(s, pat, pat) == s
    decreases |s|
  {
    if |pat| == 0 || |s| < |pat| {
    } else if s[..|pat|] == pat {
      ReplaceAllWithItself(s[|pat|..], pat);
      assert s == s[..|pat|] + s[|pat|..];
    } else {
      ReplaceAllWithItself(s[1..], pat);
      assert s == [s[0]] + s[1..];
    }
  }

  /** `implode(sep, explode(sep, s)) == s`. */
  lemma ExplodeImplode(s: string, sep: string)
    requires |sep| > 0
    ensures JoinWith(Pieces(s, sep), sep) == s
  {
    ReplaceAllIsJoinOfPieces(s, sep, sep);
    ReplaceAllWithItself(s, sep);
  }

  lemma {:induction false} PiecesWithoutSeparator(x: string, c: char)
    requires c !in x
    ensures Pieces(x, [c]) == [x]
    decreases |x|
  {
    if |x| >= 1 {
      assert x[..1] == [x[0]];
      PiecesWithoutSeparator(x[1..], c);
      assert x == [x[0]] + x[1..];
    }
  }

  /** One step of `explode` at a one-character separator. */
  lemma PiecesCons(h: char, rest: string, c: char)
    ensures Pieces([h] + rest, [c]) ==
      if h == c then [""] + Pieces(rest, [c])
      else [[h] + Pieces(rest, [c])[0]] + Pieces(rest, [c])[1..]
  {
    var s := [h] + rest;
    assert s[..1] == [h] && s[1..] == rest;
  }

  /** Splitting at a one-character separator splits the two sides independently. */
  lemma {:induction false} PiecesConcat(x: string, y: string, c: char)
    ensures Pieces(x + [c] + y, [c]) == Pieces(x, [c]) + Pieces(y, [c])
    decreases |x|
  {
    if |x| == 0 {
      assert x + [c] + y == [c] + y;
      PiecesCons(c, y, c);
    } else {
      PiecesConcat(x[1..], y, c);
      PiecesConcatStep(x[0], x[1..], y, c);
      assert x == [x[0]] + x[1..];
    }
  }

  /** The inductive step of `PiecesConcat`: prepending one character to the left side. */
  lemma PiecesConcatStep(h: char, x: string, y: string, c: char)
    requires Pieces(x + [c] + y, [c]) == Pieces(x, [c]) + Pieces(y, [c])
    ensures Pieces([h] + x + [c] + y, [c]) == Pieces([h] + x, [c]) + Pieces(y, [c])
  {
    assert [h] + x + [c] + y == [h] + (x + [c] + y);
    PiecesCons(h, x + [c] + y, c);
    PiecesCons(h, x, c);
    ConsThenAppend(h == c, [h], Pieces(x, [c]), Pieces(y, [c]));
  }

  /** Sequence algebra behind `PiecesConcatStep`: the step `PiecesCons` takes at the
      head commutes with appending further pieces at the tail. */
  lemma ConsThenAppend(split: bool, hd: string, px: seq<string>, py: seq<string>)
    requires |px| > 0
    ensures (if split then [""] + (px + py) else [hd + (px + py)[0]] + (px + py)[1..])
         == (if split then [""] + px else [hd + px[0]] + px[1..]) + py
  {
    if !split {
      assert (px + py)[1..] == px[1..] + py;
    }
  }

  /** `explode(c, implode(c, parts)) == parts` when no part contains `c`. */
  lemma {:induction false} ImplodeExplode(parts: seq<string>, c: char)
    requires |parts| > 0
    requires forall k :: 0 <= k < |parts| ==> c !in parts[k]
    ensures Pieces(JoinWith(parts, [c]), [c]) == parts
    decreases |parts|
  {
    if |parts| == 1 {
      PiecesWithoutSeparator(parts[0], c);
    } else {
      PiecesConcat(parts[0], JoinWith(parts[1..], [c]), c);
      PiecesWithoutSeparator(parts[0], c);
      ImplodeExplode(parts[1..], c);
      assert parts == [parts[0]] + parts[1..];
    }
  }

  lemma {:induction false} CharNotInJoin(parts: seq<string>, sep: string, c: char)
    requires c !in sep
    requires forall k :: 0 <= k < |parts| ==> c !in parts[k]
    ensures c !in JoinWith(parts, sep)
    decreases |parts|
  {
    if |parts| > 1 {
      CharNotInJoin(parts[1..], sep, c);
    }
  }

  /** Replacing a one-character search string works piecewise. */
  lemma {:induction false} ReplaceCharConcat(x: string, y: string, c: char, rep: string)
    ensures ReplaceAll(x + y, [c], rep) == ReplaceAll(x, [c], rep) + ReplaceAll(y, [c], rep)
    decreases |x|
  {
    if |x| > 0 {
      var s := x + y;
      assert s[..1] == x[..1] == [x[0]] && s[1..] == x[1..] + y;
      ReplaceCharConcat(x[1..], y, c, rep);
      var tail := ReplaceAll(x[1..], [c], rep) + ReplaceAll(y, [c], rep);
      if x[0] == c {
        assert ReplaceAll(s, [c], rep) == rep + tail;
        assert ReplaceAll(x, [c], rep) == rep + ReplaceAll(x[1..], [c], rep);
      } else {
        assert ReplaceAll(s, [c], rep) == [x[0]] + tail;
        assert ReplaceAll(x, [c], rep) == [x[0]] + ReplaceAll(x[1..], [c], rep);
      }
    } else {
      assert x + y == y;
    }
  }

  /** After replacing character `c` by a text without `c`, no `c` is left. */
  lemma ReplaceCharRemovesIt(s: string, c: char, rep: string)
    requires c !in rep
    ensures c !in ReplaceAll(s, [c], rep)
  {
    ReplaceAllIsJoinOfPieces(s, [c], rep);
    PiecesHaveNoSeparator(s, [c]);
    var ps := Pieces(s, [c]);
    forall k, j | 0 <= k < |ps| && 0 <= j < |ps[k]| ensures ps[k][j] != c {
      assert ps[k][j..j + 1] == [ps[k][j]];
      assert OccursAt(ps[k], [ps[k][j]], j);
    }
    CharNotInJoin(ps, rep, c);
  }

  /** Removing an occurrence that the scan meets first leaves the text on
      either side of it joined together. */
  lemma {:induction false} RemovalJoinsNeighbours(x: string, pat: string, y: string)
    requires |pat| > 0 && |y| < |pat|
    requires forall i :: 0 <= i < |x| ==> !OccursAt(x + pat + y, pat, i)
    ensures ReplaceAll(x + pat + y, pat, "") == x + y
    decreases |x|
  {
    var s := x + pat + y;
    if |x| == 0 {
      assert s[..|pat|] == pat && s[|pat|..] == y;
    } else {
      assert !OccursAt(s, pat, 0);
      assert s[1..] == x[1..] + pat + y;
      forall i | 0 <= i < |x| - 1 ensures !OccursAt(x[1..] + pat + y, pat, i) {
        assert !OccursAt(s, pat, i + 1);
        assert s[i + 1..i + 1 + |pat|] == (x[1..] + pat + y)[i..i + |pat|];
      }
      RemovalJoinsNeighbours(x[1..], pat, y);
      assert x == [x[0]] + x[1..];
    }
  }

  /** One scan can leave a search string behind even though the replacement
      does not contain it: removing `{{model}}` from `{{mo{{model}}del}}`
      joins the surrounding text into a fresh `{{model}}`. */
  lemma StraddlingOccurrenceSurvives()
    ensures ReplaceAll("{{mo{{model}}del}}", "{{model}}", "") == "{{model}}"
  {
    var x, pat, y := "{{mo", "{{model}}", "del}}";
    assert x + pat + y == "{{mo{{model}}del}}";
    assert x + y == pat;
    NoEarlyOccurrence(x, pat, y);
    RemovalJoinsNeighbours(x, pat, y);
  }

  lemma NoEarlyOccurrence(x: string, pat: string, y: string)
    requires x == "{{mo" && pat == "{{model}}" && y == "del}}"
    ensures forall i :: 0 <= i < |x| ==> !OccursAt(x + pat + y, pat, i)
  {
    var s := x + pat + y;
    assert s[2] == 'm' && s[3] == 'o' && s[4] == '{';
    assert pat[0] == '{' && pat[1] == '{' && pat[4] == 'd';
    forall i | 0 <= i < |x| ensures !OccursAt(s, pat, i) {
      var k := if i == 0 then 4 else if i == 1 then 1 else 0;
      assert s[i + k] != pat[k];
      assert s[i..i + |pat|][k] == s[i + k];
    }
  }

  lemma {:induction false} ContainsCounted(s: string, pat: string)
    requires |pat| > 0 && Contains(s, pat)
    ensures Count(s, pat) >= 1
    decreases |s|
  {
    var i :| OccursAt(s, pat, i);
    if s[..|pat|] != pat {
      assert i != 0;
      assert s[1..][i - 1..i - 1 + |pat|] == s[i..i + |pat|];
      assert OccursAt(s[1..], pat, i - 1);
      ContainsCounted(s[1..], pat);
    }
  }

  /** If the search string occurs, the replacement text appears in the result. */
  lemma ReplaceAllInserts(s: string, pat: string, rep: string)
    requires |pat| > 0 && Contains(s, pat)
    ensures Contains(ReplaceAll(s, pat, rep), rep)
  {
    ContainsCounted(s, pat);
    ReplaceAllIsJoinOfPieces(s, pat, rep);
    var ps := Pieces(s, pat);
    var r := JoinWith(ps, rep);
    assert r == ps[0] + rep + JoinWith(ps[1..], rep);
    assert r[|ps[0]|..|ps[0]| + |rep|] == rep;
    assert OccursAt(r, rep, |ps[0]|);
  }

  lemma {:induction false} ReplaceAllKeepsPrefix(s: string, pat: string, rep: string, w: string)
    requires |pat| > 0 && pat[0] !in w && w <= s
    ensures w <= ReplaceAll(s, pat, rep)
    decreases |s|
  {
    if |w| > 0 && |s| >= |pat| {
      assert s[..|pat|] != pat by {
        assert s[..|pat|][0] == s[0] == w[0];
      }
      assert w[1..] <= s[1..];
      ReplaceAllKeepsPrefix(s[1..], pat, rep, w[1..]);
      assert w == [w[0]] + w[1..];
    }
  }

  /** `pat`, shifted right by `d`, agrees with `w` wherever the two overlap. */
  predicate OverlapsAt(pat: string, w: string, d: int) {
    0 < d < |pat| && forall t :: 0 <= t < |w| && d + t < |pat| ==> pat[d + t] == w[t]
  }

  /** An occurrence of `w` and one of `pat` cannot overlap: `w` lacks the first
      character of `pat`, and no proper suffix of `pat` runs on into `w`. */
  predicate Separate(pat: string, w: string) {
    |pat| > 0 && |w| > 0 && pat[0] !in w && forall d :: 0 < d < |pat| ==> !OverlapsAt(pat, w, d)
  }

  /** The coarse way to be separate: neither text holds the other's first character. */
  lemma SeparateByFirstChars(pat: string, w: string)
    requires |pat| > 0 && |w| > 0 && pat[0] !in w && w[0] !in pat
    ensures Separate(pat, w)
  {
    forall d | 0 < d < |pat| ensures !OverlapsAt(pat, w, d) {
      assert pat[d + 0] != w[0];
    }
  }

  /** The finer way: wherever `pat` holds the first character of `w`, the two
      part again `j` characters later. */
  lemma SeparateByMismatch(pat: string, w: string, j: nat)
    requires |pat| > 0 && 0 < j < |w| && pat[0] !in w
    requires forall d :: 0 < d < |pat| && pat[d] == w[0] ==> d + j < |pat| && pat[d + j] != w[j]
    ensures Separate(pat, w)
  {
    forall d | 0 < d < |pat| ensures !OverlapsAt(pat, w, d) {
      if pat[d] == w[0] {
        assert pat[d + j] != w[j];
      } else {
        assert pat[d + 0] != w[0];
      }
    }
  }

  /** Matching `pat` at the front of `s` cannot cut into an occurrence of a
      separate `w`: the occurrence starts after the match. */
  lemma OccurrenceAfterMatch(s: string, pat: string, w: string, i: int)
    requires Separate(pat, w) && |s| >= |pat| && s[..|pat|] == pat && OccursAt(s, w, i)
    ensures i >= |pat|
  {
    forall t | 0 <= t < |w| && i + t < |pat| ensures pat[i + t] == w[t] {
      assert pat[i + t] == s[i + t];
      assert w[t] == s[i..i + |w|][t];
    }
    assert s[i] == s[i..i + |w|][0] == w[0] && s[0] == pat[0];
    assert 0 < i < |pat| ==> OverlapsAt(pat, w, i);
  }

  /** An occurrence of `w` survives replacing a separate `pat`. */
  lemma {:induction false} ReplaceAllKeeps(s: string, pat: string, rep: string, w: string)
    requires Separate(pat, w) && Contains(s, w)
    ensures Contains(ReplaceAll(s, pat, rep), w)
    decreases |s|
  {
    var i :| OccursAt(s, w, i);
    if |s| < |pat| {
    } else if s[..|pat|] == pat {
      OccurrenceAfterMatch(s, pat, w, i);
      assert s[|pat|..][i - |pat|..i - |pat| + |w|] == s[i..i + |w|];
      assert OccursAt(s[|pat|..], w, i - |pat|);
      ReplaceAllKeeps(s[|pat|..], pat, rep, w);
      ContainsAfter(rep, ReplaceAll(s[|pat|..], pat, rep), w);
    } else if i == 0 {
      assert w <= s;
      ReplaceAllKeepsPrefix(s, pat, rep, w);
      assert OccursAt(ReplaceAll(s, pat, rep), w, 0);
    } else {
      assert s[1..][i - 1..i - 1 + |w|] == s[i..i + |w|];
      assert OccursAt(s[1..], w, i - 1);
      ReplaceAllKeeps(s[1..], pat, rep, w);
      ContainsAfter([s[0]], ReplaceAll(s[1..], pat, rep), w);
    }
  }

  /** Replacing with the empty text only deletes: the result is made of
      characters of the subject. */
  lemma {:induction false} DeletionOnlyRemoves(s: string, pat: string)
    ensures multiset(ReplaceAll(s, pat, "")) <= multiset(s)
    decreases |s|
  {
    if |pat| == 0 || |s| < |pat| {
    } else if s[..|pat|] == pat {
      var rest := s[|pat|..];
      DeletionOnlyRemoves(rest, pat);
      assert ReplaceAll(s, pat, "") == ReplaceAll(rest, pat, "");
      assert s == s[..|pat|] + rest;
      assert multiset(s) == multiset(s[..|pat|]) + multiset(rest);
    } else {
      var rest := s[1..];
      DeletionOnlyRemoves(rest, pat);
      var r := ReplaceAll(rest, pat, "");
      assert ReplaceAll(s, pat, "") == [s[0]] + r;
      assert s == [s[0]] + rest;
      assert multiset([s[0]] + r) == multiset([s[0]]) + multiset(r);
      assert multiset(s) == multiset([s[0]]) + multiset(rest);
    }
  }

  lemma {:induction false} DeletionsOnlyRemove(s: string, pats: seq<string>)
    ensures multiset(ReplaceEach(s, pats, "")) <= multiset(s)
    decreases |pats|
  {
    if |pats| > 0 {
      DeletionOnlyRemoves(s, pats[0]);
      DeletionsOnlyRemove(ReplaceAll(s, pats[0], ""), pats[1..]);
    }
  }

  /** `w` is separate from every search string of a pass. */
  predicate Apart(pats: seq<string>, w: string) {
    |w| > 0 && forall k :: 0 <= k < |pats| ==> Separate(pats[k], w)
  }

  /** The coarse condition for a whole pass. */
  predicate FirstCharsApart(pats: seq<string>, w: string) {
    |w| > 0 && forall k :: 0 <= k < |pats| ==> |pats[k]| > 0 && pats[k][0] !in w && w[0] !in pats[k]
  }

  lemma ApartByFirstChars(pats: seq<string>, w: string)
    requires FirstCharsApart(pats, w)
    ensures Apart(pats, w)
  {
    forall k | 0 <= k < |pats| ensures Separate(pats[k], w) {
      SeparateByFirstChars(pats[k], w);
    }
  }

  /** A text apart from a pass's search strings is apart from its later ones. */
  lemma ApartLater(pats: seq<string>, w: string)
    requires |pats| > 0 && Apart(pats, w)
    ensures Apart(pats[1..], w)
  {
    assert forall k :: 0 <= k < |pats[1..]| ==> pats[1..][k] == pats[k + 1];
  }

  /** Text that no search string of a pass can overlap survives the pass. */
  lemma {:induction false} ReplaceEachKeeps(s: string, pats: seq<string>, rep: string, w: string)
    requires Apart(pats, w) && Contains(s, w)
    ensures Contains(ReplaceEach(s, pats, rep), w)
    decreases |pats|
  {
    if |pats| > 0 {
      ReplaceAllKeeps(s, pats[0], rep, w);
      ApartLater(pats, w);
      ReplaceEachKeeps(ReplaceAll(s, pats[0], rep), pats[1..], rep, w);
    }
  }

  /** A pass puts its replacement text into a subject holding any of its
      search strings, provided the later search strings cannot overlap it. */
  lemma {:induction false} ReplaceEachInserts(s: string, pats: seq<string>, rep: string, k: nat)
    requires k < |pats| && |pats[0]| > 0 && Apart(pats[1..], rep)
    requires Contains(s, pats[k])
    ensures Contains(ReplaceEach(s, pats, rep), rep)
    decreases k
  {
    var mid := ReplaceAll(s, pats[0], rep);
    if k == 0 || Contains(s, pats[0]) {
      ReplaceAllInserts(s, pats[0], rep);
      ReplaceEachKeeps(mid, pats[1..], rep, rep);
    } else {
      ReplaceAllWithoutOccurrence(s, pats[0], rep);
      var rest := pats[1..];
      assert rest[k - 1] == pats[k];
      assert forall j :: 0 <= j < |rest[1..]| ==> rest[1..][j] == rest[j + 1];
      ReplaceEachInserts(s, rest, rep, k - 1);
    }
  }

  /** A character of `s` is a one-character occurrence in `s`. */
  lemma CharContained(s: string, c: char)
    requires c in s
    ensures Contains(s, [c])
  {
    var i :| 0 <= i < |s| && s[i] == c;
    assert s[i..i + 1] == [c];
    assert OccursAt(s, [c], i);
  }

  /** An occurrence of `w` puts its first character into `s`. */
  lemma ContainsFirstChar(s: string, w: string)
    requires |w| > 0 && Contains(s, w)
    ensures w[0] in s
  {
    var i :| OccursAt(s, w, i);
    assert s[i] == s[i..i + |w|][0];
  }

  /** A character absent from the subject is absent from every piece of `explode`. */
  lemma {:induction false} PiecesKeepAbsentChar(s: string, sep: string, c: char)
    requires |sep| > 0 && c !in s
    ensures forall k :: 0 <= k < |Pieces(s, sep)| ==> c !in Pieces(s, sep)[k]
    decreases |s|
  {
    if |s| < |sep| {
    } else if s[..|sep|] == sep {
      assert forall j :: 0 <= j < |s[|sep|..]| ==> s[|sep|..][j] == s[|sep| + j];
      PiecesKeepAbsentChar(s[|sep|..], sep, c);
    } else {
      assert forall j :: 0 <= j < |s[1..]| ==> s[1..][j] == s[1 + j];
      PiecesKeepAbsentChar(s[1..], sep, c);
    }
  }

  /** ASCII lower-casing never turns a kept character into a trimmable one or back. */
  lemma LowerCharTrimmable(c: char)
    ensures IsTrimmable(LowerChar(c)) == IsTrimmable(c)
    ensures IsTrimmable(c) ==> LowerChar(c) == c
  {
  }

  lemma {:induction false} TrimLeftLower(s: string)
    ensures TrimLeft(Lower(s)) == Lower(TrimLeft(s))
    decreases |s|
  {
    if |s| > 0 {
      var l := Lower(s);
      assert l[0] == LowerChar(s[0]);
      LowerCharTrimmable(s[0]);
      if IsTrimmable(s[0]) {
        assert l[1..] == Lower(s[1..]);
        TrimLeftLower(s[1..]);
      }
    }
  }

  lemma {:induction false} TrimRightLower(s: string)
    ensures TrimRight(Lower(s)) == Lower(TrimRight(s))
    decreases |s|
  {
    if |s| > 0 {
      var l := Lower(s);
      assert l[|s| - 1] == LowerChar(s[|s| - 1]);
      LowerCharTrimmable(s[|s| - 1]);
      if IsTrimmable(s[|s| - 1]) {
        assert l[..|s| - 1] == Lower(s[..|s| - 1]);
        TrimRightLower(s[..|s| - 1]);
      }
    }
  }

  /** `trim` and lower-casing commute. */
  lemma TrimLower(s: string)
    ensures Trim(Lower(s)) == Lower(Trim(s))
  {
    TrimLeftLower(s);
    TrimRightLower(TrimLeft(s));
  }

  /** `explode` at a character that the first segment lacks splits that segment off. */
  lemma PiecesAfterSegment(a: string, rest: string, c: char)
    requires c !in a
    ensures Pieces(a + [c] + rest, [c]) == [a] + Pieces(rest, [c])
  {
    PiecesConcat(a, rest, c);
    PiecesWithoutSeparator(a, c);
  }

  /** Replacing a character that the first segment lacks keeps that segment. */
  lemma ReplaceCharAfterSegment(a: string, rest: string, c: char, rep: string)
    requires c !in a
    ensures ReplaceAll(a + [c] + rest, [c], rep) == a + rep + ReplaceAll(rest, [c], rep)
  {
    assert a + [c] + rest == a + ([c] + rest);
    ReplaceCharConcat(a, [c] + rest, c, rep);
    assert !Contains(a, [c]) by {
      if Contains(a, [c]) { ContainsFirstChar(a, [c]); }
    }
    ReplaceAllWithoutOccurrence(a, [c], rep);
    var s := [c] + rest;
    assert s[..1] == [c] && s[1..] == rest;
  }

  /** Three segments and a rest, each followed by a separator, grouped from the right. */
  lemma Regroup(a: string, b: string, d: string, rest: string, sep: string)
    ensures a + sep + b + sep + d + sep + rest == a + sep + (b + sep + (d + sep + rest))
  {
  }

  /** `explode` splits off three leading segments that lack the separator. */
  lemma PiecesAfterThreeSegments(a: string, b: string, d: string, rest: string, c: char)
    requires c !in a && c !in b && c !in d
    ensures Pieces(a + [c] + b + [c] + d + [c] + rest, [c]) == [a, b, d] + Pieces(rest, [c])
  {
    var inner := d + [c] + rest;
    var mid := b + [c] + inner;
    Regroup(a, b, d, rest, [c]);
    PiecesAfterSegment(d, rest, c);
    PiecesAfterSegment(b, inner, c);
    PiecesAfterSegment(a, mid, c);
    assert [a] + ([b] + ([d] + Pieces(rest, [c]))) == [a, b, d] + Pieces(rest, [c]);
  }

  /** Replacing a character that three leading segments lack keeps them. */
  lemma ReplaceCharAfterThreeSegments(a: string, b: string, d: string, rest: string, c: char, rep: string)
    requires c !in a && c !in b && c !in d
    ensures ReplaceAll(a + [c] + b + [c] + d + [c] + rest, [c], rep)
         == a + rep + b + rep + d + rep + ReplaceAll(rest, [c], rep)
  {
    var inner := d + [c] + rest;
    var mid := b + [c] + inner;
    Regroup(a, b, d, rest, [c]);
    ReplaceCharAfterSegment(d, rest, c, rep);
    ReplaceCharAfterSegment(b, inner, c, rep);
    ReplaceCharAfterSegment(a, mid, c, rep);
  }

  /** Re-joining all but the last piece of `explode(c, s)` with a character `d`
      that `s` lacks, and splitting again at `d`, gives back those pieces. */
  lemma ExplodeOfDropLast(s: string, c: char, d: char)
    requires d !in s && |Pieces(s, [c])| >= 2
    ensures Pieces(JoinWith(Pieces(s, [c])[..|Pieces(s, [c])| - 1], [d]), [d])
         == Pieces(s, [c])[..|Pieces(s, [c])| - 1]
  {
    var ps := Pieces(s, [c]);
    var kept := ps[..|ps| - 1];
    PiecesKeepAbsentChar(s, [c], d);
    assert forall k :: 0 <= k < |kept| ==> kept[k] == ps[k];
    ImplodeExplode(kept, d);
  }

  /** A character neither in the subject nor in the replacement is not in the result. */
  lemma {:induction false} ReplaceAllAddsNoChar(s: string, pat: string, rep: string, c: char)
    requires c !in s && c !in rep
    ensures c !in ReplaceAll(s, pat, rep)
    decreases |s|
  {
    if |pat| > 0 && |s| >= |pat| {
      if s[..|pat|] == pat {
        assert forall j :: 0 <= j < |s[|pat|..]| ==> s[|pat|..][j] == s[|pat| + j];
        ReplaceAllAddsNoChar(s[|pat|..], pat, rep, c);
      } else {
        assert forall j :: 0 <= j < |s[1..]| ==> s[1..][j] == s[1 + j];
        ReplaceAllAddsNoChar(s[1..], pat, rep, c);
      }
    }
  }

  // ---------------------------------------------------------------- nothing left behind

  /** A replacement that cannot take part in an occurrence of `w` from its
      edges or from its inside: it starts and ends with characters `w` lacks
      and does not hold `w` itself. */
  ghost predicate Sealed(rep: string, w: string) {
    |rep| > 0 && rep[0] !in w && rep[|rep| - 1] !in w && !Contains(rep, w)
  }

  /** An occurrence of `w` that starts `p` characters before `rep` runs into it. */
  predicate RunsInto(w: string, rep: string, p: int) {
    0 < p < |w| &&
    if |w| - p <= |rep| then w[p..] == rep[..|w| - p] else w[p..p + |rep|] == rep
  }

  /** An occurrence of `w` that starts at `q` inside `rep` runs out of it. */
  predicate RunsOutOf(rep: string, w: string, q: int) {
    0 <= q < |rep| && |rep| - q < |w| && rep[q..] == w[..|rep| - q]
  }

  /** No occurrence of `w` lies inside `rep` or crosses either of its ends, so
      joining texts without `w` by `rep` makes no `w`. */
  ghost predicate Insulated(rep: string, w: string) {
    |rep| > 0 && |w| > 0 && !Contains(rep, w)
    && (forall p :: !RunsInto(w, rep, p)) && (forall q :: !RunsOutOf(rep, w, q))
  }

  /** A sealed replacement is insulated: an occurrence crossing its first or
      last character would hold that character. */
  lemma SealedIsInsulated(rep: string, w: string)
    requires |w| > 0 && Sealed(rep, w)
    ensures Insulated(rep, w)
  {
    forall p ensures !RunsInto(w, rep, p) {
      if 0 < p < |w| {
        assert w[p] in w && w[p..][0] == w[p];
        assert w[p] != rep[0];
      }
    }
    forall q ensures !RunsOutOf(rep, w, q) {
      if 0 <= q < |rep| && |rep| - q < |w| {
        var n := |rep| - q;
        assert w[n - 1] in w && rep[q..][n - 1] == rep[|rep| - 1];
        assert w[n - 1] != rep[|rep| - 1];
      }
    }
  }

  /** A replacement at least as long as `w`, whose first character `w` lacks
      and whose last character no proper prefix of `w` ends with, is insulated
      against `w`; so is one that also lacks the first character of `w`. */
  lemma InsulatedByEnds(rep: string, w: string)
    requires 0 < |w| <= |rep| && !Contains(rep, w) && rep[0] !in w
    requires w[0] !in rep || rep[|rep| - 1] !in w[..|w| - 1]
    ensures Insulated(rep, w)
  {
    forall p ensures !RunsInto(w, rep, p) {
      if 0 < p < |w| {
        assert w[p] in w && w[p..][0] == w[p];
        assert w[p] != rep[0];
      }
    }
    forall q ensures !RunsOutOf(rep, w, q) {
      if 0 <= q < |rep| && |rep| - q < |w| {
        var n := |rep| - q;
        assert rep[q] in rep && rep[q..][0] == rep[q];
        assert w[..|w| - 1][n - 1] == w[n - 1] && rep[q..][n - 1] == rep[|rep| - 1];
        assert w[..|w| - 1][n - 1] in w[..|w| - 1];
        assert w[0] != rep[q] || w[n - 1] != rep[|rep| - 1];
      }
    }
  }

  /** Any character of an occurrence is in the text. */
  lemma ContainsCharOf(s: string, w: string, j: int)
    requires Contains(s, w) && 0 <= j < |w|
    ensures w[j] in s
  {
    var i :| OccursAt(s, w, i);
    assert s[i + j] == s[i..i + |w|][j];
  }

  /** A prefix of a text without `w` has no `w`. */
  lemma PrefixAvoids(p: string, s: string, w: string)
    requires p <= s && !Contains(s, w)
    ensures !Contains(p, w)
  {
    forall i | OccursAt(p, w, i) ensures OccursAt(s, w, i) {
      assert s[i..i + |w|] == p[i..i + |w|];
    }
  }

  /** No piece of `explode` holds a text that its subject lacks. */
  lemma {:induction false} PiecesAvoid(s: string, sep: string, w: string)
    requires |sep| > 0 && |w| > 0 && !Contains(s, w)
    ensures forall k :: 0 <= k < |Pieces(s, sep)| ==> !Contains(Pieces(s, sep)[k], w)
    decreases |s|
  {
    if |s| < |sep| {
    } else if s[..|sep|] == sep {
      assert s == s[..|sep|] + s[|sep|..];
      if Contains(s[|sep|..], w) { ContainsAfter(s[..|sep|], s[|sep|..], w); }
      PiecesAvoid(s[|sep|..], sep, w);
      assert !OccursAt("", w, 0);
      assert forall i :: !OccursAt("", w, i);
    } else {
      ContainsAfterTail(s, w);
      PiecesAvoid(s[1..], sep, w);
      var rest := Pieces(s[1..], sep);
      assert [s[0]] + rest[0] <= s;
      PrefixAvoids([s[0]] + rest[0], s, w);
    }
  }

  /** `a + rep + b` holds no `w` when none of the three does and `rep` is
      insulated against it. */
  lemma InsulatedJoinAvoids(a: string, rep: string, b: string, w: string)
    requires Insulated(rep, w) && !Contains(a, w) && !Contains(b, w)
    ensures !Contains(a + rep + b, w)
  {
    var s := a + rep + b;
    var A, R := |a|, |rep|;
    assert s[A..A + R] == rep && s[A + R..] == b;
    forall i | 0 <= i && i + |w| <= |s| ensures !OccursAt(s, w, i) {
      var x := s[i..i + |w|];
      if i + |w| <= A {
        assert x == a[i..i + |w|];
        assert !OccursAt(a, w, i);
      } else if i >= A + R {
        assert x == s[A + R..][i - A - R..i - A - R + |w|] == b[i - A - R..i - A - R + |w|];
        assert !OccursAt(b, w, i - A - R);
      } else if A <= i && i + |w| <= A + R {
        assert x == s[A..A + R][i - A..i - A + |w|] == rep[i - A..i - A + |w|];
        assert !OccursAt(rep, w, i - A);
      } else if i < A {
        var p := A - i;
        assert !RunsInto(w, rep, p);
        if |w| - p <= R {
          assert x[p..] == rep[..|w| - p];
        } else {
          assert x[p..p + R] == rep;
        }
      } else {
        var q := i - A;
        assert !RunsOutOf(rep, w, q);
        assert x[..R - q] == rep[q..];
      }
    }
  }

  /** Joining pieces without `w` by an insulated replacement makes no `w`. */
  lemma {:induction false} JoinAvoids(ps: seq<string>, rep: string, w: string)
    requires Insulated(rep, w)
    requires forall k :: 0 <= k < |ps| ==> !Contains(ps[k], w)
    ensures !Contains(JoinWith(ps, rep), w)
    decreases |ps|
  {
    if |ps| == 0 {
      assert forall i :: !OccursAt("", w, i);
    } else if |ps| > 1 {
      JoinAvoids(ps[1..], rep, w);
      InsulatedJoinAvoids(ps[0], rep, JoinWith(ps[1..], rep), w);
    }
  }

  /** An insulated replacement leaves no occurrence of its search string behind. */
  lemma ReplaceAllLeavesNone(s: string, pat: string, rep: string)
    requires Insulated(rep, pat)
    ensures !Contains(ReplaceAll(s, pat, rep), pat)
  {
    ReplaceAllIsJoinOfPieces(s, pat, rep);
    PiecesHaveNoSeparator(s, pat);
    JoinAvoids(Pieces(s, pat), rep, pat);
  }

  /** Nor does it make an occurrence of another text the subject lacks. */
  lemma ReplaceAllAddsNone(s: string, pat: string, rep: string, w: string)
    requires |pat| > 0 && Insulated(rep, w) && !Contains(s, w)
    ensures !Contains(ReplaceAll(s, pat, rep), w)
  {
    ReplaceAllIsJoinOfPieces(s, pat, rep);
    PiecesAvoid(s, pat, w);
    JoinAvoids(Pieces(s, pat), rep, w);
  }

  /** A pass with a replacement insulated against `w` makes no `w` the subject lacks. */
  lemma {:induction false} ReplaceEachAddsNone(s: string, pats: seq<string>, rep: string, w: string)
    requires Insulated(rep, w) && !Contains(s, w)
    requires forall k :: 0 <= k < |pats| ==> |pats[k]| > 0
    ensures !Contains(ReplaceEach(s, pats, rep), w)
    decreases |pats|
  {
    if |pats| > 0 {
      ReplaceAllAddsNone(s, pats[0], rep, w);
      assert forall k :: 0 <= k < |pats[1..]| ==> pats[1..][k] == pats[k + 1];
      ReplaceEachAddsNone(ReplaceAll(s, pats[0], rep), pats[1..], rep, w);
    }
  }

  /** A pass whose replacement is insulated against every search string leaves
      none of them behind. */
  lemma {:induction false} ReplaceEachLeavesNone(s: string, pats: seq<string>, rep: string)
    requires forall k :: 0 <= k < |pats| ==> Insulated(rep, pats[k])
    ensures forall k :: 0 <= k < |pats| ==> !Contains(ReplaceEach(s, pats, rep), pats[k])
    decreases |pats|
  {
    if |pats| > 0 {
      var mid := ReplaceAll(s, pats[0], rep);
      ReplaceAllLeavesNone(s, pats[0], rep);
      assert forall k :: 0 <= k < |pats[1..]| ==> pats[1..][k] == pats[k + 1];
      ReplaceEachLeavesNone(mid, pats[1..], rep);
      ReplaceEachAddsNone(mid, pats[1..], rep, pats[0]);
    }
  }
}
